=== FILE: README.md ===
# node-rest-server, modelled in Dafny

This project models the core of node-rest-server, an Express REST API for a feed of
posts with JWT-authenticated users. It covers:

- the feed controller: list posts a page at a time, and create, read, update and
  delete one post;
- the auth controller: sign up and log in;
- the GraphQL `createUser` resolver;
- the two routers, with their middleware chains and express-validator chains;
- the error helpers `throwError` and `catchError`;
- the application-level logic of `app.js`: multer's file filter and disk-storage
  naming, and the final error middleware.

MongoDB is modelled as an abstract store (`Store.Collection`). It keeps a map from id
to document, plus the collection's storage order, which `find()` returns when no sort
is given. Each handler is one atomic step from a store to an `Outcome` holding three
things:

- the new store;
- the image paths handed to `clearImage`, in call order;
- either the response, or the error forwarded to the error middleware.

The store invariant is `Db.Valid`. Both collections list each of their documents
exactly once in storage order. Every id is a canonical (lower-case, 24 hex digit)
ObjectId text. Every post id a user lists names a stored post whose creator is that
user. Every handler keeps this invariant.

Modules, one per source concern:

- `Common` and `Text`: options, JavaScript whitespace and `trim`, single replacement,
  and hex digits.
- `Errors` and `Replies`: the error helpers and handler outcomes.
- `Store`: the abstract collection.
- `Db`: ObjectId casting, the `Post` and `User` documents, the invariant, and lookup by
  email.
- `App`: the multer filter and naming rule, and the error middleware.
- `FeedController` and `FeedProperties`: the feed handlers and their properties.
- `AuthController`, `Resolvers`, `FeedRoutes` and `AuthRoutes`.

Behaviour worth knowing:

- `getPosts` applies no sort. Posts come back in storage order.
- Each listed post carries its creator's whole user document, password hash included
  (`populate('creator')`).
- `getPost` has no ownership check. Any authenticated caller can read any post.
- `req.query.page || 1` keeps a page of "0" or a negative page, since a non-empty
  string is truthy. The resulting negative skip is refused by MongoDB, and the client
  gets a 500.
- The express-validator sanitizers (`trim`, `normalizeEmail`) write back into the
  request body. So the handlers store the trimmed title, content and name, the hash of
  the trimmed password, and the normalized email.
- A failed validation is recorded in `validationResult`, but the 422 the client gets
  carries only the message `Validation failed!` (or `Validation Failed hard!` on
  signup), never the list of failing fields.
- Whether the signup email checks see the email as sent or normalized depends on the
  express-validator version: 5.x applies a chain's sanitizers before its validators,
  later versions run the steps in declared order. Both orders are modelled
  (`AuthRoutes.ChainOrder`). Either way login looks the email up as sent while the
  saved copy is normalized, so a user whose email the normalizer changes cannot log
  in with the email they signed up with (`AuthRoutes.NormalizedEmailBlocksLogin`).
- `createUser` in the GraphQL resolver throws `User allready exists!` with no status
  code for a taken email, unlike its 422 for invalid input.
- `createPost` stores the upload path with its first backslash turned into a slash.
  On a host whose path separator is a slash, that would be the first backslash of the
  client's file name, should the name hold one; multer's parser normally cuts the name
  down to its base name, which holds none. `putPost` stores the path unchanged.
- A create or delete whose user is missing fails with 500, but only after the post
  was saved or removed. The model keeps that partial write.

## Model

| member | source | states |
|---|---|---|
| Errors.ThrowError | helpers/error.js:1-5 | the thrown error carries the given message and sets `statusCode` to the given status, so it is truthy exactly when the status is not 0 |
| Errors.CatchError | helpers/error.js:7-10 | the message is kept; a truthy status is kept as it is, any other becomes 500; the forwarded status is always truthy |
| Errors.CatchErrorIdempotent | helpers/error.js:7-10 | passing an error through `catchError` twice is the same as once |
| Errors.ThrownErrorKeepsStatus | helpers/error.js:1-10 | an error thrown with a non-zero status reaches the middleware with that status and message |
| App.FileFilter | app.js:20-26 | an upload is kept exactly when its MIME type is one of png, jpg, jpeg |
| App.FileFilterIsExact | app.js:21 | the comparison is exact: `image/PNG`, `image/gif` and `image/svg+xml` are dropped |
| App.FileNameParts | app.js:15-17 | the stored file name is the uuid, a dash, and the client's name, and splits back into them |
| App.FileNameInjective | app.js:15-17 | with uuids of equal length, different uploads never share a stored name |
| App.Receive | app.js:12-26 | `req.file` is set exactly when a file was sent with an accepted type; it lies in `images` under the uuid-prefixed name |
| App.RespondError | app.js:49-55 | the response status is `statusCode` when truthy, else 500; the body carries the message only |
| App.CatchErrorAgreesWithMiddleware | app.js:49-55 | defaulting the status in `catchError` changes nothing the client sees |
| Text.Trim | routes/feed.js:9 | the result is the input without its leading and trailing JavaScript whitespace, with non-space ends |
| Text.TrimIdempotent | routes/feed.js:9 | trimming a trimmed value changes nothing |
| Text.ReplaceFirst | controllers/feed.js:41 | only the first occurrence of the character is replaced; the length and every other character are kept |
| Text.ReplaceFirstAfter | controllers/feed.js:41 | a prefix free of the character passes through the replacement untouched |
| Db.CastId | controllers/feed.js:73 | of the 24-character forms, exactly the hex strings cast, to their lower-cased text; every other string is a cast error (500) |
| Db.CastCanonical | controllers/auth.js:47 | an ObjectId's text casts back to the same id |
| Db.FindByEmailNone | controllers/auth.js:35-39 | `findOne({email})` finds nothing exactly when no stored user has that email |
| Db.FindByEmail | controllers/auth.js:35 | `findOne({email})` returns a user with that email, and no user before it in storage order has it |
| Db.FindNewUser | controllers/auth.js:35 | after saving a user with a fresh email, looking up that email finds the new user |
| Store.Window | controllers/feed.js:15-18 | skip/limit returns at most `limit` ids, the ones at positions `skip`, `skip+1`, … of storage order |
| Store.Without | controllers/feed.js:147 | pulling an id removes every occurrence and keeps every other id as often as it occurred |
| Store.WithoutConcat | controllers/feed.js:147 | pulling from a concatenation pulls from each part, so the survivors keep their order |
| Store.WithoutAppended | controllers/feed.js:147 | pulling an id just pushed onto a list that lacked it gives the list back |
| Store.InsertThenRemove | controllers/feed.js:141 | removing a document just saved gives the collection back, order included |
| Store.CountIsOrderLength | controllers/feed.js:11-14 | `countDocuments()` equals the number of posts paging walks through |
| FeedController.GetPosts | controllers/feed.js:7-28 | 200 with the total count and the page's posts in storage order exactly when the page is at least 1, each with its populated creator document (or none); otherwise 500; nothing changes |
| FeedController.CreatePost | controllers/feed.js:30-69 | 422 with nothing written on validation errors or a missing file; on success the post is saved and its id pushed onto the creator's list; a user id that does not cast fails with 500 and writes nothing; a missing user leaves the post saved and fails with 500 |
| FeedController.GetPost | controllers/feed.js:71-84 | 200 with the stored post exactly when the id casts and exists; 404 when absent, 500 when it does not cast |
| FeedController.PutPost | controllers/feed.js:86-128 | 422, 422, 500, 404 and 403 in that order with nothing changed; on success only title, content and image change, and the old image is cleared exactly when it changed |
| FeedController.DeletePost | controllers/feed.js:130-157 | 500, 404 and 403 with nothing changed; for the owner the image is cleared once and the post removed; success exactly when the user exists, whose list then loses the id |
| FeedProperties.PagesArePrefix | controllers/feed.js:15-18 | the first k pages together are the first 2k posts in storage order |
| FeedProperties.PagesPartition | controllers/feed.js:8-18 | pages 1 to ceil(N/2) list every post exactly once; later pages are empty |
| FeedProperties.TotalIndependentOfPage | controllers/feed.js:11-24 | every page from 1 up succeeds with the same `totalItems`; a page past the end is empty, not an error |
| FeedProperties.PageDefaultsToFirst | controllers/feed.js:9 | no page parameter means page 1 |
| FeedProperties.CreateKeepsValid | controllers/feed.js:44-58 | creating a post keeps the store invariant, on success and on the partial failure |
| FeedProperties.PutKeepsValid | controllers/feed.js:105-119 | updating a post keeps the store invariant |
| FeedProperties.DeleteKeepsValid | controllers/feed.js:130-149 | deleting a post keeps the store invariant, including when the user is missing |
| FeedProperties.CreateThenGet | controllers/feed.js:44-81 | a created post reads back as the create returned it |
| FeedProperties.UpdateThenGet | controllers/feed.js:116-125 | an updated post reads back as the update returned it |
| FeedProperties.DeleteThenGet | controllers/feed.js:130-149 | after its owner deletes it, a post is 404 and no user lists it |
| FeedProperties.CreateThenDelete | controllers/feed.js:30-157 | a create followed by the same user's delete restores the store exactly and clears the created image |
| FeedProperties.ReceivedImageUrl | controllers/feed.js:37-47 | an upload multer stored under `images` becomes the post's `imageUrl` `images/<uuid>-<name>` when the separator is a backslash; with a slash separator the name's first backslash is replaced instead |
| AuthController.PutSignup | controllers/auth.js:7-30 | 422 with nothing saved on validation errors; otherwise 201 and a new user whose password field is the hash |
| AuthController.PostLogin | controllers/auth.js:32-52 | 401 for an unknown email or a failed comparison; otherwise 200 with a token for the email and user id, signed with the fixed secret and expiring in one hour |
| AuthController.LoginSucceedsIff | controllers/auth.js:35-49 | login fails exactly when no user has the email or the hash does not match; the token's user id names a stored user |
| AuthController.SignupKeepsValid | controllers/auth.js:14-21 | signing up keeps the store invariant |
| Resolvers.PasswordRejectedIff | graphql/resolvers.js:12 | the password test rejects exactly the passwords shorter than five characters |
| Resolvers.InputErrors | graphql/resolvers.js:8-14 | exactly one entry per failing check and nothing else, email first; no errors exactly when the email is valid and the password is long enough |
| Resolvers.ErrorsAreCollected | graphql/resolvers.js:8-20 | an invalid email and a short password are both reported, in that order |
| Resolvers.CreateUser | graphql/resolvers.js:6-41 | input errors throw code 422 with the list as data before any lookup; a taken email throws `User allready exists!` with no code and no data and saves nothing; otherwise the user is saved and returned with its id as text |
| Resolvers.CreateUserKeepsValid | graphql/resolvers.js:28-35 | creating a user keeps the store invariant |
| Resolvers.CreateUserDuplicate | graphql/resolvers.js:21-40 | a taken email always fails and saves nothing; a created user is found by its email and its id text casts back |
| FeedRoutes.RouteTable | routes/feed.js:18-31 | every feed route runs `isAuth` first; the post validators run on create and update only; no two routes share a verb and path |
| FeedRoutes.PostValidation | routes/feed.js:7-16 | title and content are trimmed; each one shorter than five characters after trimming is recorded in `validationResult` once, title first, and nothing else is recorded |
| FeedRoutes.LongEnoughIff | routes/feed.js:8-15 | a field passes exactly when two non-space characters at least five apart bound it |
| FeedRoutes.RefusedChangesNothing | routes/feed.js:19-31 | a request `isAuth` refuses changes nothing on every route, reads included |
| FeedRoutes.ShortFieldsRefused | routes/feed.js:22-28 | a short title or content makes create and update fail with 422 and change nothing |
| FeedRoutes.ReadsIgnoreBody | routes/feed.js:19-31 | listing, reading and deleting do not depend on the body or the upload |
| FeedRoutes.ShortTitleAndContent | routes/feed.js:7-16 | a title and a content each shorter than five characters (such as "abc") are both recorded, title first, and the create gets 422 |
| FeedRoutes.ValidationFailureNamesNoField | controllers/feed.js:34-36 | a failed validation on create or update reaches the client as 422 with the bare message `Validation failed!` |
| FeedRoutes.Handle | routes/feed.js:18-31 | a request `isAuth` refuses leaves the store alone, clears nothing and gets the status the error middleware gives its error; an authenticated list or read changes nothing and clears nothing |
| FeedRoutes.HandleKeepsValid | routes/feed.js:18-31 | every feed request keeps the store invariant |
| AuthRoutes.SignupValidation | routes/auth.js:8-29 | every check runs: bad format, taken email, short password and empty name are each recorded exactly when they fail, the email checks seeing the normalized email when sanitizers run first; the body is normalized and trimmed |
| AuthRoutes.Signup | routes/auth.js:8-29 | an unacceptable request gets 422 with nothing saved; otherwise exactly one user is added, with the normalized email, trimmed name and hashed trimmed password, and nothing else changes |
| AuthRoutes.AuthRouteTable | routes/auth.js:8-32 | signup runs a validation chain and login runs none |
| AuthRoutes.Login | routes/auth.js:32 | login changes nothing; it succeeds exactly when `findOne` finds a user by the email as sent and the hash matches; a success names a stored user whose email is exactly the one sent and whose hash matches; a failure is 401 |
| AuthRoutes.SignupRefusesTakenEmail | routes/auth.js:12-20 | signing up with an email whose checked form a user already has gets 422 and saves nothing |
| AuthRoutes.SignupThenLogin | routes/auth.js:8-32 | after signing up with an email the normalizer keeps, login with the trimmed password yields the new user's token, in either chain order |
| AuthRoutes.NormalizedEmailBlocksLogin | routes/auth.js:9-21 | after signing up with an email the normalizer changes, login with the email as sent never reaches the new user, and fails with 401 when no earlier user holds that exact text (always, in declared order) |

## Left out

- Mongoose and MongoDB internals are left out. The store is an abstract collection with a
  storage order; `populate('creator')` is a lookup of the creator.
- Db.CastId: only 24-hex-digit ObjectId texts are modelled. Mongoose also casts any
  12-character string, for which `findById` answers 404 where the model answers 500;
  modelling it needs the string's byte encoding.
- Only integer page values are modelled. A fractional page (`?page=1.5` skips one
  post, starting the window between pages) or a non-numeric page string is not.
- The client's upload name (`originalname`) is unconstrained: the base-name cut that
  multer's multipart parser applies is not modelled.
- Schema timestamps (`createdAt`, `updatedAt`) and `__v` are left out, since no handler
  reads them.
- The `isAuth` middleware is not part of this model. Its decision is an input: a user id,
  or the error it raised.
- bcrypt, jsonwebtoken, `validator.isEmail`, `normalizeEmail` and uuid generation are
  parameters. bcrypt's hash and compare are functions passed in, and a signed token is
  the record of what was signed.
- `clearImage` is not part of this model. The model records the paths it is called with.
- `path.join` normalisation is left out. The upload path is the directory, the host
  separator and the file name.
- `validator.isLength` counts code points, as the model's `char` count does, except
  that recent validator versions also leave out the variation selectors U+FE0E and
  U+FE0F. The model counts them.
- Library error messages (a Mongoose cast failure, a `TypeError` on a missing document)
  are placeholders; only their missing status matters.
- Asynchrony and concurrency are left out, since each handler is one atomic step.
- Left out as outside the core: socket.io, CORS headers, static file serving, body
  parsing, console logging, and the server start-up and database connection.
- Per-request failures of the database itself (connection loss, write errors) are left
  out.
- The GraphQL schema and the HTTP binding of the resolver are left out. Only
  `createUser`'s logic is modelled.

=== FILE: app.dfy ===
/**
 * The application-level pieces with logic in them: multer's file filter and disk-storage
 * naming rule for the `image` upload, and the final error middleware that turns a
 * forwarded error into the HTTP response.
 */
module App {
  import opened Common
  import opened Errors

  /** The disk-storage destination directory. */
  const ImagesDir := "images"

  /** The MIME types the file filter keeps. */
  const ImageTypes: set<string> := {"image/png", "image/jpg", "image/jpeg"}

  /** The `image` part of a multipart request, as the client sent it. */
  datatype IncomingFile = IncomingFile(originalname: string, mimetype: string)

  /** `req.file` after multer stored the upload. */
  datatype StoredFile = StoredFile(destination: string, filename: string, path: string)

  /** `fileFilter`: multer keeps the file (`cb(null, true)`) or silently drops it
      (`cb(null, false)`); it never reports an error. */
  function FileFilter(mimetype: string): (accept: bool)
    ensures accept <==> mimetype in ImageTypes
  {
    mimetype == "image/png" || mimetype == "image/jpg" || mimetype == "image/jpeg"
  }

  /** The comparison is exact: other spellings and other image types are dropped. */
  lemma FileFilterIsExact()
    ensures !FileFilter("image/PNG") && !FileFilter("image/gif") && !FileFilter("image/svg+xml")
    ensures FileFilter("image/jpg") && FileFilter("image/jpeg")
  {
  }

  /** The disk-storage `filename` rule: the generated uuid, a dash, the client's name. */
  function FileName(uuid: string, originalname: string): (name: string)
  {
    uuid + "-" + originalname
  }

  /** The stored name can be split back into the uuid and the client's file name. */
  lemma FileNameParts(uuid: string, originalname: string)
    ensures |FileName(uuid, originalname)| == |uuid| + 1 + |originalname|
    ensures FileName(uuid, originalname)[..|uuid|] == uuid
    ensures FileName(uuid, originalname)[|uuid|] == '-'
    ensures FileName(uuid, originalname)[|uuid| + 1..] == originalname
  {
  }

  /** With uuids of one length (a version-4 uuid is always 36 characters), different
      uploads get different names. */
  lemma FileNameInjective(u1: string, n1: string, u2: string, n2: string)
    requires |u1| == |u2|
    requires FileName(u1, n1) == FileName(u2, n2)
    ensures u1 == u2 && n1 == n2
  {
    FileNameParts(u1, n1);
    FileNameParts(u2, n2);
  }

  /** What multer leaves in `req.file` for an upload, given the uuid it generates and
      the path separator of the host (`path.join(destination, filename)`). */
  function Receive(file: Option<IncomingFile>, uuid: string, sep: char): (r: Option<StoredFile>)
    requires sep == '/' || sep == '\\'
    ensures r.Some? <==> file.Some? && file.value.mimetype in ImageTypes
    ensures r.Some? ==> r.value.destination == ImagesDir
    ensures r.Some? ==> r.value.filename == FileName(uuid, file.value.originalname)
    ensures r.Some? ==> r.value.path == ImagesDir + [sep] + r.value.filename
  {
    match file
    case None => None
    case Some(f) =>
      if FileFilter(f.mimetype) then
        var name := FileName(uuid, f.originalname);
        Some(StoredFile(ImagesDir, name, ImagesDir + [sep] + name))
      else None
  }

  /** The JSON body of an error response: the message and nothing else. */
  datatype ErrorBody = ErrorBody(message: string)

  datatype ErrorResponse = ErrorResponse(status: int, body: ErrorBody)

  /** The error middleware: status `error.statusCode || 500`, body `{message}`. */
  function RespondError(e: HttpError): (w: ErrorResponse)
    ensures w.status != 0
    ensures e.statusCode.Truthy() ==> w.status == e.statusCode.n
    ensures !e.statusCode.Truthy() ==> w.status == DefaultStatus
    ensures w.body.message == e.message
  {
    ErrorResponse(if e.statusCode.Truthy() then e.statusCode.n else DefaultStatus, ErrorBody(e.message))
  }

  /** `catchError` and the middleware agree: defaulting the status first changes nothing
      the client sees, and the status `catchError` assigns is the one sent. */
  lemma CatchErrorAgreesWithMiddleware(e: HttpError)
    ensures RespondError(CatchError(e)) == RespondError(e)
    ensures CatchError(e).statusCode == Code(RespondError(e).status)
  {
  }
}

=== FILE: auth_controller.dfy ===
/**
 * The auth controller: signing up (hash the password, save the user) and logging in
 * (find the user by email, compare the password, sign a token). bcrypt and jsonwebtoken
 * are not modelled: the hash for this request and the password comparison are
 * parameters, and a signed token is the record of what was signed.
 */
module AuthController {
  import opened Common
  import opened Errors
  import opened Replies
  import opened Db
  import Store

  /** The signup fields the controller reads from `req.body`. */
  datatype SignupBody = SignupBody(email: string, name: string, password: string)

  datatype SignupReply = SignupReply(message: string, userId: Id)

  /** The secret every token is signed with. */
  const Secret := "ThisIsTheSecret"

  /** The `expiresIn` option of every token. */
  const Lifetime := "1h"

  /** The token payload. */
  datatype Claims = Claims(email: string, userId: string)

  /** `jwt.sign(payload, secret, {expiresIn})`, kept as the record of its arguments. */
  datatype Token = Token(payload: Claims, secret: string, expiresIn: string)

  datatype LoginReply = LoginReply(token: Token, userId: string)

  /** `putSignup`: validation errors are 422 before anything is hashed or saved;
      otherwise a user is saved whose password field is the hash, not the password,
      and the reply is 201 with the new user's id. `hash` is bcrypt's output for this
      request (its salt is random). */
  function PutSignup(db: Db, errors: seq<FieldError>, body: SignupBody, hash: string -> string, newId: Id)
    : (o: Outcome<Db, SignupReply>)
    requires newId !in db.users.docs
    ensures o.cleared == [] && o.store.posts == db.posts
    ensures errors != [] ==> Untouched(o, db) && FailsWith(o, 422)
    ensures errors == [] ==>
      && o.reply == Ok(201, SignupReply("user was created!", newId))
      && newId in o.store.users.docs
      && o.store.users.docs[newId] == User(body.email, body.name, hash(body.password), [])
      && o.store.users == Store.Insert(db.users, newId, o.store.users.docs[newId])
  {
    if errors != [] then
      Outcome(db, [], Fail(ThrowError("Validation Failed hard!", 422)))
    else
      var user := User(body.email, body.name, hash(body.password), []);
      Outcome(db.(users := Store.Insert(db.users, newId, user)), [], Ok(201, SignupReply("user was created!", newId)))
  }

  /** `postLogin`: an unknown email and a failed comparison are both 401 with no token;
      otherwise the token carries the email and the user's id text, expires after an
      hour, and the reply's `userId` is the token's. `compare(password, hash)` is
      bcrypt's comparison. */
  function PostLogin(db: Db, email: string, password: string, compare: (string, string) -> bool)
    : (o: Outcome<Db, LoginReply>)
    ensures o.store == db && o.cleared == []
    ensures FindByEmail(db.users, email).None? ==> FailsWith(o, 401)
    ensures o.reply.Ok? <==>
      FindByEmail(db.users, email).Some? && compare(password, db.users.docs[FindByEmail(db.users, email).value].password)
    ensures o.reply.Fail? ==> FailsWith(o, 401)
    ensures o.reply.Ok? ==>
      var id := FindByEmail(db.users, email).value;
      && o.reply.status == 200
      && o.reply.body.token == Token(Claims(email, id), Secret, Lifetime)
      && o.reply.body.userId == o.reply.body.token.payload.userId
      && db.users.docs[id].email == email
  {
    match FindByEmail(db.users, email)
    case None =>
      Outcome(db, [], Fail(ThrowError("User with email: " + email + " was not found", 401)))
    case Some(id) =>
      if !compare(password, db.users.docs[id].password) then
        Outcome(db, [], Fail(ThrowError("wrong credentials", 401)))
      else
        var token := Token(Claims(email, id), Secret, Lifetime);
        Outcome(db, [], Ok(200, LoginReply(token, id)))
  }

  /** In a valid store, login fails exactly when no user has the email or the first
      such user's hash does not match; the token's user id names a stored user. */
  lemma LoginSucceedsIff(db: Db, email: string, password: string, compare: (string, string) -> bool)
    requires Valid(db)
    ensures PostLogin(db, email, password, compare).reply.Fail? <==>
      (forall id :: id in db.users.docs ==> db.users.docs[id].email != email)
      || !compare(password, db.users.docs[FindByEmail(db.users, email).value].password)
    ensures PostLogin(db, email, password, compare).reply.Ok? ==>
      var claims := PostLogin(db, email, password, compare).reply.body.token.payload;
      claims.userId in db.users.docs && CastId(claims.userId) == Some(claims.userId)
  {
    FindByEmailNone(db.users, email);
    var o := PostLogin(db, email, password, compare);
    if o.reply.Ok? {
      CastCanonical(o.reply.body.userId);
    }
  }

  /** Signing up keeps the store invariant. */
  lemma SignupKeepsValid(db: Db, errors: seq<FieldError>, body: SignupBody, hash: string -> string, newId: Id)
    requires Valid(db) && IsCanonicalId(newId) && newId !in db.users.docs
    ensures Valid(PutSignup(db, errors, body, hash, newId).store)
  {
    var o := PutSignup(db, errors, body, hash, newId);
    if errors == [] {
      Store.InsertValid(db.users, newId, o.store.users.docs[newId]);
    }
  }
}

=== FILE: auth_routes.dfy ===
/**
 * The auth router: signup runs the validation chain (email format, email not yet
 * taken, password of five characters after trimming, non-empty name after trimming)
 * before the controller; login runs no validators. `validator.isEmail` and
 * `normalizeEmail` are parameters.
 */
module AuthRoutes {
  import opened Text
  import opened Errors
  import opened Replies
  import opened Db
  import Store
  import opened AuthController

  datatype AuthRoute = SignupRoute | LoginRoute

  /** Whether a validation chain is registered before the handler. */
  function HasValidators(r: AuthRoute): bool {
    r == SignupRoute
  }

  /** Signup is validated; login reaches its controller with the body as sent. */
  lemma AuthRouteTable(r: AuthRoute)
    ensures HasValidators(r) <==> r == SignupRoute
  {
  }

  /** The signup request body as the client sent it. */
  datatype SignupRequest = SignupRequest(email: string, password: string, name: string)

  const BadEmail := FieldError("email", "Please enter a valid email!")
  const TakenEmail := FieldError("email", "Email address already exists!")
  const BadPassword := FieldError("password", "Invalid value")
  const BadName := FieldError("name", "Invalid value")

  /** The order in which a validation chain runs its steps. express-validator 5.x
      (whose `express-validator/check` entry point the routes import) applies every
      sanitizer of a chain before its validators; 6.x and later run the steps in the
      order they are declared. Which order applies depends on the installed version,
      so both are modelled. */
  datatype ChainOrder = SanitizersFirst | AsDeclared

  /** The email value the format check and the taken-email lookup see. */
  function CheckedEmail(order: ChainOrder, email: string, normalize: string -> string): string {
    match order
    case SanitizersFirst => normalize(email)
    case AsDeclared => email
  }

  /** The body after the chain: the errors recorded, and the fields as the sanitizers
      left them (email normalized, password and name trimmed). */
  datatype SignupValidated = SignupValidated(errors: seq<FieldError>, body: SignupBody)

  /** Whether the signup chain records no error. */
  predicate SignupAcceptable(db: Db, req: SignupRequest, isEmail: string -> bool, normalize: string -> string,
                             order: ChainOrder) {
    var email := CheckedEmail(order, req.email, normalize);
    && isEmail(email)
    && FindByEmail(db.users, email).None?
    && |Trim(req.password)| >= 5
    && Trim(req.name) != []
  }

  /** The errors the chain records, in chain order, given which checks passed. */
  function SignupErrors(okFormat: bool, okFree: bool, okPassword: bool, okName: bool): (errors: seq<FieldError>)
    ensures BadEmail in errors <==> !okFormat
    ensures TakenEmail in errors <==> !okFree
    ensures BadPassword in errors <==> !okPassword
    ensures BadName in errors <==> !okName
    ensures errors == [] <==> okFormat && okFree && okPassword && okName
  {
    var email := (if okFormat then [] else [BadEmail]) + (if okFree then [] else [TakenEmail]);
    var fields := email + (if okPassword then [] else [BadPassword]);
    assert BadEmail.msg != TakenEmail.msg;
    assert BadPassword !in email by {
      assert BadPassword.param != BadEmail.param && BadPassword.param != TakenEmail.param;
    }
    assert BadName !in fields by {
      assert BadName.param != BadEmail.param && BadName.param != BadPassword.param;
    }
    fields + (if okName then [] else [BadName])
  }

  /** The signup validation chain. Every check runs (none stops the others). The
      password and name are trimmed before their checks in either order; the email
      checks see the normalized email only when sanitizers run first. */
  function SignupValidation(db: Db, req: SignupRequest, isEmail: string -> bool, normalize: string -> string,
                            order: ChainOrder): (v: SignupValidated)
    ensures v.body == SignupBody(normalize(req.email), Trim(req.name), Trim(req.password))
    ensures BadEmail in v.errors <==> !isEmail(CheckedEmail(order, req.email, normalize))
    ensures TakenEmail in v.errors <==> FindByEmail(db.users, CheckedEmail(order, req.email, normalize)).Some?
    ensures BadPassword in v.errors <==> |Trim(req.password)| < 5
    ensures BadName in v.errors <==> Trim(req.name) == []
    ensures v.errors == [] <==> SignupAcceptable(db, req, isEmail, normalize, order)
  {
    var email := CheckedEmail(order, req.email, normalize);
    var errors := SignupErrors(isEmail(email), FindByEmail(db.users, email).None?,
                               |Trim(req.password)| >= 5, Trim(req.name) != []);
    SignupValidated(errors, SignupBody(normalize(req.email), Trim(req.name), Trim(req.password)))
  }

  /** `PUT /auth/signup`: the chain, then `putSignup`. */
  function Signup(db: Db, req: SignupRequest, isEmail: string -> bool, normalize: string -> string,
                  hash: string -> string, newId: Id, order: ChainOrder): (o: Outcome<Db, SignupReply>)
    requires newId !in db.users.docs
    ensures !SignupAcceptable(db, req, isEmail, normalize, order) ==> Untouched(o, db) && FailsWith(o, 422)
    ensures SignupAcceptable(db, req, isEmail, normalize, order) ==>
      && o.reply == Ok(201, SignupReply("user was created!", newId))
      && o.cleared == [] && o.store.posts == db.posts
      && newId in o.store.users.docs
      && o.store.users.docs[newId] == User(normalize(req.email), Trim(req.name), hash(Trim(req.password)), [])
      && o.store.users == Store.Insert(db.users, newId, o.store.users.docs[newId])
  {
    var v := SignupValidation(db, req, isEmail, normalize, order);
    PutSignup(db, v.errors, v.body, hash, newId)
  }

  /** `POST /auth/login`: no validators, straight to `postLogin`. Nothing trims or
      normalizes the fields, so the email is matched exactly as the client sent it. */
  function Login(db: Db, email: string, password: string, compare: (string, string) -> bool)
    : (o: Outcome<Db, LoginReply>)
    ensures o.store == db && o.cleared == []
    ensures o.reply.Ok? <==>
      FindByEmail(db.users, email).Some? && compare(password, db.users.docs[FindByEmail(db.users, email).value].password)
    ensures o.reply.Ok? ==>
      var id := o.reply.body.userId;
      && id in db.users.docs
      && db.users.docs[id].email == email
      && compare(password, db.users.docs[id].password)
    ensures o.reply.Fail? ==> FailsWith(o, 401)
  {
    PostLogin(db, email, password, compare)
  }

  /** An email whose checked form already belongs to a user is refused with 422 and
      nothing saved. */
  lemma SignupRefusesTakenEmail(db: Db, req: SignupRequest, isEmail: string -> bool, normalize: string -> string,
                                hash: string -> string, newId: Id, order: ChainOrder)
    requires Valid(db) && newId !in db.users.docs
    requires exists id :: id in db.users.docs && db.users.docs[id].email == CheckedEmail(order, req.email, normalize)
    ensures Untouched(Signup(db, req, isEmail, normalize, hash, newId, order), db)
    ensures FailsWith(Signup(db, req, isEmail, normalize, hash, newId, order), 422)
  {
    FindByEmailNone(db.users, CheckedEmail(order, req.email, normalize));
  }

  /** Signup followed by login: with an email the normalizer leaves as it is, and the
      password without surrounding whitespace (what was hashed), login finds the new
      user and issues a token for it, in either chain order. */
  lemma SignupThenLogin(db: Db, req: SignupRequest, isEmail: string -> bool, normalize: string -> string,
                        hash: string -> string, compare: (string, string) -> bool, newId: Id, order: ChainOrder)
    requires Valid(db) && newId !in db.users.docs
    requires SignupAcceptable(db, req, isEmail, normalize, order)
    requires normalize(req.email) == req.email
    requires compare(Trim(req.password), hash(Trim(req.password)))
    ensures var signed := Signup(db, req, isEmail, normalize, hash, newId, order);
            var login := Login(signed.store, req.email, Trim(req.password), compare);
            && login.reply.Ok?
            && login.reply.body.userId == newId
            && login.reply.body.token.payload == Claims(req.email, newId)
  {
    assert CheckedEmail(order, req.email, normalize) == req.email;
    var user := User(req.email, Trim(req.name), hash(Trim(req.password)), []);
    FindByEmailNone(db.users, req.email);
    FindNewUser(db.users, newId, user);
  }

  /** The email is normalized before it is saved but login looks it up as sent: when the
      normalizer changes the email, login with the email as sent never reaches the new
      user, and fails with 401 whenever no earlier user holds that exact text (always so
      when the chain runs in declared order, whose taken-email check looked it up). */
  lemma NormalizedEmailBlocksLogin(db: Db, req: SignupRequest, isEmail: string -> bool, normalize: string -> string,
                                   hash: string -> string, password: string, compare: (string, string) -> bool,
                                   newId: Id, order: ChainOrder)
    requires Valid(db) && newId !in db.users.docs
    requires SignupAcceptable(db, req, isEmail, normalize, order)
    requires normalize(req.email) != req.email
    ensures var signed := Signup(db, req, isEmail, normalize, hash, newId, order);
            var login := Login(signed.store, req.email, password, compare);
            && (login.reply.Ok? ==> login.reply.body.userId != newId)
            && ((forall id :: id in db.users.docs ==> db.users.docs[id].email != req.email) ==> FailsWith(login, 401))
            && (order == AsDeclared ==> FailsWith(login, 401))
  {
    var signed := Signup(db, req, isEmail, normalize, hash, newId, order);
    FindByEmailNone(db.users, req.email);
    Store.InsertValid(db.users, newId, signed.store.users.docs[newId]);
    FindByEmailNone(signed.store.users, req.email);
  }
}

=== FILE: common.dfy ===
/**
 * Small shared vocabulary: an optional value, and the string operations the
 * JavaScript source relies on (`String.prototype.trim`, `String.prototype.replace`
 * with a one-character string pattern, hexadecimal digits).
 */
module Common {

  /** A value that may be absent (JavaScript `undefined` / `null`). */
  datatype Option<+T> = None | Some(value: T)
}

module Text {

  /** The code points JavaScript's `trim` and the regular expression class `\s` remove:
      the WhiteSpace and LineTerminator productions of ECMAScript. */
  predicate IsSpace(c: char) {
    || c == ' ' || c == '\t' || c == '\n' || c == '\r' || c == '\U{B}' || c == '\U{C}'
    || c == '\U{A0}' || c == '\U{1680}' || ('\U{2000}' <= c <= '\U{200A}')
    || c == '\U{2028}' || c == '\U{2029}' || c == '\U{202F}' || c == '\U{205F}'
    || c == '\U{3000}' || c == '\U{FEFF}'
  }

  /** `s` with its leading whitespace removed. */
  function TrimStart(s: string): (r: string)
    ensures |r| <= |s| && r == s[|s| - |r|..]
    ensures r == [] || !IsSpace(r[0])
    ensures forall i :: 0 <= i < |s| - |r| ==> IsSpace(s[i])
  {
    if s != [] && IsSpace(s[0]) then TrimStart(s[1..]) else s
  }

  /** `s` with its trailing whitespace removed. */
  function TrimEnd(s: string): (r: string)
    ensures |r| <= |s| && r == s[..|r|]
    ensures r == [] || !IsSpace(r[|r| - 1])
    ensures forall i :: |r| <= i < |s| ==> IsSpace(s[i])
  {
    if s != [] && IsSpace(s[|s| - 1]) then TrimEnd(s[..|s| - 1]) else s
  }

  /** `r` sits at offset `a` of `s` and everything of `s` around it is whitespace. */
  predicate Padded(s: string, a: int, r: string) {
    && 0 <= a && a + |r| <= |s|
    && s[a..a + |r|] == r
    && (forall i :: 0 <= i < a ==> IsSpace(s[i]))
    && (forall i :: a + |r| <= i < |s| ==> IsSpace(s[i]))
  }

  /** JavaScript `s.trim()`: the infix of `s` left after removing whitespace at both ends. */
  function Trim(s: string): (r: string)
    ensures Padded(s, |s| - |TrimStart(s)|, r)
    ensures r == [] || (!IsSpace(r[0]) && !IsSpace(r[|r| - 1]))
  {
    var t := TrimStart(s);
    var r := TrimEnd(t);
    PaddedCompose(s, |s| - |t|, t, r);
    r
  }

  /** Padding composes: trimming the front and then the back of `s` pads `s`. */
  lemma PaddedCompose(s: string, a: int, t: string, r: string)
    requires 0 <= a <= |s| && t == s[a..]
    requires forall i :: 0 <= i < a ==> IsSpace(s[i])
    requires |r| <= |t| && r == t[..|r|]
    requires forall i :: |r| <= i < |t| ==> IsSpace(t[i])
    requires t == [] || !IsSpace(t[0])
    ensures Padded(s, a, r)
    ensures r == [] || !IsSpace(r[0])
  {
    assert s[a..a + |r|] == r;
    forall i | a + |r| <= i < |s|
      ensures IsSpace(s[i])
    {
      assert s[i] == t[i - a];
    }
  }

  /** Any infix of `s` that is surrounded by whitespace and does not itself begin or
      end with whitespace is the trimmed string: `Trim` is fully characterised. */
  lemma {:induction false} TrimUnique(s: string, a: int, r: string)
    requires Padded(s, a, r)
    requires r == [] || (!IsSpace(r[0]) && !IsSpace(r[|r| - 1]))
    requires r == [] ==> forall i :: 0 <= i < |s| ==> IsSpace(s[i])
    ensures Trim(s) == r
  {
    var t := Trim(s);
    var b := |s| - |TrimStart(s)|;
    if r == [] {
      assert t == [];
    } else {
      // both start at the first and end at the last non-space character of s
      assert a == b;
      assert |r| == |t|;
      assert s[a..a + |r|] == s[b..b + |t|];
    }
  }

  /** Trimming twice is trimming once. */
  lemma TrimIdempotent(s: string)
    ensures Trim(Trim(s)) == Trim(s)
  {
    var t := Trim(s);
    assert t[0..0 + |t|] == t;
    TrimUnique(t, 0, t);
  }

  /** The trimmed length is the span from the first to the last non-space character:
      `|Trim(s)| >= n` (n >= 1) iff two non-space characters lie at least `n - 1` apart. */
  lemma {:induction false} TrimmedLengthAtLeast(s: string, n: nat)
    requires n >= 1
    ensures |Trim(s)| >= n <==>
      exists i, j :: 0 <= i <= j < |s| && j - i + 1 >= n && !IsSpace(s[i]) && !IsSpace(s[j])
  {
    var t := Trim(s);
    var a := |s| - |TrimStart(s)|;
    if |t| >= n {
      assert s[a] == t[0];
      assert s[a + |t| - 1] == t[|t| - 1];
      assert 0 <= a <= a + |t| - 1 < |s| && !IsSpace(s[a]) && !IsSpace(s[a + |t| - 1]);
    }
    if exists i, j :: 0 <= i <= j < |s| && j - i + 1 >= n && !IsSpace(s[i]) && !IsSpace(s[j]) {
      var i, j :| 0 <= i <= j < |s| && j - i + 1 >= n && !IsSpace(s[i]) && !IsSpace(s[j]);
      assert a <= i;
      assert j < a + |t|;
    }
  }

  /** The index of the first occurrence of `c` in `s`, or `|s|` when there is none. */
  function IndexOf(s: string, c: char): (i: nat)
    ensures i <= |s|
    ensures i < |s| ==> s[i] == c
    ensures forall j :: 0 <= j < i ==> s[j] != c
  {
    if s == [] then 0
    else if s[0] == c then 0
    else 1 + IndexOf(s[1..], c)
  }

  /** JavaScript `s.replace(from, to)` with one-character string patterns: only the
      FIRST occurrence of `from` is replaced, every other character is kept. */
  function ReplaceFirst(s: string, from: char, to: char): (r: string)
    ensures |r| == |s|
    ensures forall j :: 0 <= j < |s| ==> r[j] == (if j == IndexOf(s, from) then to else s[j])
  {
    var i := IndexOf(s, from);
    if i == |s| then s else s[i := to]
  }

  /** When `a` holds no `from`, replacing the first `from` of `a + b` happens inside `b`. */
  lemma ReplaceFirstAfter(a: string, b: string, from: char, to: char)
    requires from !in a
    ensures ReplaceFirst(a + b, from, to) == a + ReplaceFirst(b, from, to)
  {
    var s := a + b;
    var i := IndexOf(s, from);
    var j := IndexOf(b, from);
    assert forall k :: 0 <= k < |a| ==> s[k] == a[k];
    assert forall k :: 0 <= k < |b| ==> s[|a| + k] == b[k];
    assert i == |a| + j;
  }

  predicate IsHexDigit(c: char) {
    ('0' <= c <= '9') || ('a' <= c <= 'f') || ('A' <= c <= 'F')
  }

  predicate IsLowerHexDigit(c: char) {
    ('0' <= c <= '9') || ('a' <= c <= 'f')
  }

  /** The lower-case spelling of a hexadecimal digit. */
  function LowerHex(c: char): (d: char)
    requires IsHexDigit(c)
    ensures IsLowerHexDigit(d)
    ensures IsLowerHexDigit(c) ==> d == c
  {
    if 'A' <= c <= 'F' then (c as int - 'A' as int + 'a' as int) as char else c
  }
}

=== FILE: db.dfy ===
/**
 * The persisted state the controllers work on: the `posts` and `users` collections of
 * the Mongoose models, keyed by ObjectId strings, and the rules by which a request's id
 * string is cast to an ObjectId.
 */
module Db {
  import opened Common
  import opened Text
  import Store

  /** The 24-digit lower-case hexadecimal text of an ObjectId. */
  type Id = string

  /** A string Mongoose accepts where an ObjectId is expected: 24 hexadecimal digits. */
  predicate IsHexId(s: string) {
    |s| == 24 && forall i :: 0 <= i < |s| ==> IsHexDigit(s[i])
  }

  /** The form `ObjectId.toString()` produces. */
  predicate IsCanonicalId(s: string) {
    |s| == 24 && forall i :: 0 <= i < |s| ==> IsLowerHexDigit(s[i])
  }

  /** Casting a request's id string to an ObjectId: 24 hexadecimal digits of either
      case are accepted and name the same id; any other string is a cast error here
      (the 12-character form Mongoose also accepts is not modelled). */
  function CastId(s: string): (r: Option<Id>)
    ensures r.Some? <==> IsHexId(s)
    ensures r.Some? ==> IsCanonicalId(r.value)
    ensures r.Some? ==> forall i :: 0 <= i < |s| ==> r.value[i] == LowerHex(s[i])
  {
    if IsHexId(s) then Some(seq(|s|, i requires 0 <= i < |s| && IsHexDigit(s[i]) => LowerHex(s[i])))
    else None
  }

  /** The text of an ObjectId casts back to the same ObjectId. */
  lemma CastCanonical(s: string)
    requires IsCanonicalId(s)
    ensures CastId(s) == Some(s)
  {
    var r := CastId(s);
    assert r.Some?;
    assert r.value == s;
  }

  /** A post document (its `createdAt`/`updatedAt` timestamps are not modelled). */
  datatype Post = Post(title: string, content: string, imageUrl: string, creator: Id)

  /** A user document: the password field holds the bcrypt hash; `posts` lists the ids
      of the user's posts in the order they were pushed. */
  datatype User = User(email: string, name: string, password: string, posts: seq<Id>)

  datatype Db = Db(posts: Store.Collection<Post>, users: Store.Collection<User>)

  predicate CanonicalKeys<T>(c: Store.Collection<T>) {
    forall id :: id in c.docs ==> IsCanonicalId(id)
  }

  /** Back-references: every post id a user lists names a stored post created by that
      user. */
  predicate Linked(db: Db) {
    forall uid, pid :: uid in db.users.docs && pid in db.users.docs[uid].posts ==>
      pid in db.posts.docs && db.posts.docs[pid].creator == uid
  }

  /** Every post's creator is stored as an ObjectId, whose text is canonical. */
  predicate CanonicalCreators(db: Db) {
    forall pid :: pid in db.posts.docs ==> IsCanonicalId(db.posts.docs[pid].creator)
  }

  /** The invariant of the store every operation keeps. */
  predicate Valid(db: Db) {
    && Store.Valid(db.posts) && Store.Valid(db.users)
    && CanonicalKeys(db.posts) && CanonicalKeys(db.users)
    && CanonicalCreators(db) && Linked(db)
  }

  /** The store before any request. */
  const Empty := Db(Store.Collection(map[], []), Store.Collection(map[], []))

  lemma EmptyValid()
    ensures Valid(Empty)
  {
  }

  /** The first of `order` naming a stored user with this `email`. */
  function FirstWithEmail(order: seq<Id>, docs: map<Id, User>, email: string): (r: Option<Id>)
    ensures r.Some? ==> r.value in order && r.value in docs && docs[r.value].email == email
    ensures r.None? <==> forall i :: 0 <= i < |order| && order[i] in docs ==> docs[order[i]].email != email
    ensures r.Some? ==> exists i :: 0 <= i < |order| && order[i] == r.value && NoneBefore(order, docs, email, i)
  {
    if order == [] then None
    else if order[0] in docs && docs[order[0]].email == email then
      assert NoneBefore(order, docs, email, 0);
      Some(order[0])
    else
      var r := FirstWithEmail(order[1..], docs, email);
      assert forall i :: 1 <= i < |order| ==> order[i] == order[1..][i - 1];
      assert r.Some? ==> exists i :: 0 <= i < |order| && order[i] == r.value && NoneBefore(order, docs, email, i) by {
        if r.Some? {
          var j :| 0 <= j < |order[1..]| && order[1..][j] == r.value && NoneBefore(order[1..], docs, email, j);
          assert order[j + 1] == r.value;
          assert NoneBefore(order, docs, email, j + 1) by {
            forall k | 0 <= k < j + 1 && order[k] in docs
              ensures docs[order[k]].email != email
            {
              if k > 0 {
                assert order[k] == order[1..][k - 1];
              }
            }
          }
        }
      }
      r
  }

  /** No user listed in `order` before position `i` has this `email`. */
  predicate NoneBefore(order: seq<Id>, docs: map<Id, User>, email: string, i: int)
    requires 0 <= i <= |order|
  {
    forall k :: 0 <= k < i && order[k] in docs ==> docs[order[k]].email != email
  }

  /** `User.findOne({email})`: the first user in storage order with exactly this email. */
  function FindByEmail(users: Store.Collection<User>, email: string): (r: Option<Id>)
    ensures r.Some? ==> r.value in users.docs && users.docs[r.value].email == email
    ensures r.Some? ==> exists i :: 0 <= i < |users.order| && users.order[i] == r.value
                                   && NoneBefore(users.order, users.docs, email, i)
  {
    FirstWithEmail(users.order, users.docs, email)
  }

  /** In a valid collection `findOne` finds nothing exactly when no user has the email. */
  lemma FindByEmailNone(users: Store.Collection<User>, email: string)
    requires Store.Valid(users)
    ensures FindByEmail(users, email).None? <==> forall id :: id in users.docs ==> users.docs[id].email != email
  {
    if FindByEmail(users, email).None? {
      forall id | id in users.docs
        ensures users.docs[id].email != email
      {
        var i :| 0 <= i < |users.order| && users.order[i] == id;
      }
    }
  }

  /** A user saved with an email nobody else has is the one `findOne` finds. */
  lemma {:induction false} FirstWithNewEmail(order: seq<Id>, docs: map<Id, User>, id: Id, u: User)
    requires id !in order
    requires forall i :: 0 <= i < |order| && order[i] in docs ==> docs[order[i]].email != u.email
    ensures FirstWithEmail(order + [id], docs[id := u], u.email) == Some(id)
  {
    if order == [] {
      assert [] + [id] == [id];
    } else {
      assert (order + [id])[1..] == order[1..] + [id];
      assert forall i :: 1 <= i < |order| ==> order[i] == order[1..][i - 1];
      FirstWithNewEmail(order[1..], docs, id, u);
    }
  }

  lemma FindNewUser(users: Store.Collection<User>, id: Id, u: User)
    requires Store.Valid(users) && id !in users.docs
    requires forall other :: other in users.docs ==> users.docs[other].email != u.email
    ensures FindByEmail(Store.Insert(users, id, u), u.email) == Some(id)
  {
    FirstWithNewEmail(users.order, users.docs, id, u);
  }
}

=== FILE: errors.dfy ===
/**
 * The error helpers every controller uses: `throwError` creates an error carrying an
 * HTTP status, `catchError` gives a status of 500 to any error that reaches a promise's
 * `catch` without one, and forwards it to the error middleware.
 */
module Errors {

  /** The `statusCode` property of a JavaScript error: never assigned, or assigned a
      number (0 being the one falsy number the model keeps). */
  datatype StatusCode = Unset | Code(n: int) {
    /** JavaScript truthiness of the property. */
    predicate Truthy() {
      Code? && n != 0
    }
  }

  /** An `Error` object as the controllers see it: its message and its status. */
  datatype HttpError = HttpError(message: string, statusCode: StatusCode)

  /** One entry of express-validator's `validationResult(req)`: the request field and
      the validator's message. */
  datatype FieldError = FieldError(param: string, msg: string)

  /** The status `catchError` falls back to. */
  const DefaultStatus := 500

  /** `throwError(message, status)`: the thrown error. */
  function ThrowError(message: string, status: int): (e: HttpError)
    ensures e.message == message && e.statusCode == Code(status)
    ensures e.statusCode.Truthy() <==> status != 0
  {
    HttpError(message, Code(status))
  }

  /** An error raised by library code (a Mongoose cast failure, a `TypeError` on a
      missing document): it carries no status of its own. */
  function LibraryError(message: string): (e: HttpError)
  {
    HttpError(message, Unset)
  }

  /** `catchError(error, next)`: the error object passed on to `next`. */
  function CatchError(e: HttpError): (r: HttpError)
    ensures r.message == e.message
    ensures e.statusCode.Truthy() ==> r == e
    ensures !e.statusCode.Truthy() ==> r.statusCode == Code(DefaultStatus)
    ensures r.statusCode.Truthy()
  {
    if e.statusCode.Truthy() then e else e.(statusCode := Code(DefaultStatus))
  }

  /** Passing an error through `catchError` twice is the same as once. */
  lemma CatchErrorIdempotent(e: HttpError)
    ensures CatchError(CatchError(e)) == CatchError(e)
  {
  }

  /** `throwError` followed by `catchError` keeps the thrown message and status,
      whenever that status is not the falsy 0. */
  lemma ThrownErrorKeepsStatus(message: string, status: int)
    requires status != 0
    ensures CatchError(ThrowError(message, status)) == HttpError(message, Code(status))
  {
  }
}

/**
 * What a controller hands back: the store after the request, the image paths it asked
 * `clearImage` to remove (in call order), and either a success response or the error
 * forwarded to the error middleware.
 */
module Replies {
  import opened Errors

  datatype Reply<+T> = Ok(status: int, body: T) | Fail(error: HttpError)

  datatype Outcome<+S, +T> = Outcome(store: S, cleared: seq<string>, reply: Reply<T>)

  /** A failed request that left `store` as it was and cleared no image. */
  predicate Untouched<S(==), T>(o: Outcome<S, T>, store: S) {
    o.store == store && o.cleared == [] && o.reply.Fail?
  }

  /** A failed request whose error status is `status`. */
  predicate FailsWith<S, T>(o: Outcome<S, T>, status: int) {
    o.reply.Fail? && o.reply.error.statusCode == Code(status)
  }
}

=== FILE: feed_controller.dfy ===
/**
 * The feed controller: listing posts a page at a time, and creating, reading, updating
 * and deleting one post. Each handler is one atomic step from a store to an `Outcome`:
 * the new store, the image paths handed to `clearImage`, and the response or the error
 * forwarded to the error middleware.
 */
module FeedController {
  import opened Common
  import opened Text
  import opened Errors
  import opened Replies
  import opened Db
  import Store
  import App

  /** `ITEMS_PER_PAGE`. */
  const ItemsPerPage := 2

  /** A listed post with its `creator` populated: the user document, or `null` when the
      creator no longer exists. */
  datatype PostView = PostView(id: Id, post: Post, creator: Option<User>)

  datatype PostsPage = PostsPage(message: string, posts: seq<PostView>, totalItems: nat)

  /** A post as it is sent back: the document and its `_id`. */
  datatype PostDoc = PostDoc(id: Id, post: Post)

  /** The `creator: {_id, name}` summary of the create response. */
  datatype CreatorSummary = CreatorSummary(id: Id, name: string)

  datatype CreatedPost = CreatedPost(message: string, post: PostDoc, creator: CreatorSummary)

  datatype FoundPost = FoundPost(message: string, post: PostDoc)

  datatype Removed = Removed(message: string)

  /** `req.query.page || 1`, where `page` is the numeric value of the query parameter
      (`None` when it is absent or empty). A present "0" is a truthy string, so it is
      kept, not defaulted. */
  function CurrentPage(page: Option<int>): int {
    match page
    case None => 1
    case Some(n) => n
  }

  /** `(currentPage - 1) * ITEMS_PER_PAGE`. */
  function Skip(page: Option<int>): int {
    (CurrentPage(page) - 1) * ItemsPerPage
  }

  /** The ids of page `page` (from 1) of storage order `order`. */
  function PageIds(order: seq<Id>, page: nat): (ids: seq<Id>)
    requires page >= 1
  {
    Store.Window(order, (page - 1) * ItemsPerPage, ItemsPerPage)
  }

  function View(db: Db, id: Id): PostView
    requires id in db.posts.docs
  {
    var post := db.posts.docs[id];
    PostView(id, post, Store.Get(db.users, post.creator))
  }

  /** `getPosts`: the total count of posts and one page of them, in storage order (no
      sort is applied). A negative skip is refused by MongoDB and reaches the client
      as a 500. */
  function GetPosts(db: Db, page: Option<int>): (o: Outcome<Db, PostsPage>)
    requires Valid(db)
    ensures o.store == db && o.cleared == []
    ensures o.reply.Ok? <==> CurrentPage(page) >= 1
    ensures o.reply.Fail? ==> FailsWith(o, 500)
    ensures o.reply.Ok? ==>
      && o.reply.status == 200
      && o.reply.body.totalItems == |db.posts.order|
      && var ids := PageIds(db.posts.order, CurrentPage(page));
      && |o.reply.body.posts| == |ids| <= ItemsPerPage
      && forall i :: 0 <= i < |ids| ==>
           && o.reply.body.posts[i].id == ids[i]
           && o.reply.body.posts[i].post == db.posts.docs[ids[i]]
           && o.reply.body.posts[i].creator == Store.Get(db.users, db.posts.docs[ids[i]].creator)
  {
    var skip := Skip(page);
    if skip < 0 then
      Outcome(db, [], Fail(CatchError(LibraryError("skip value must be non-negative"))))
    else
      var ids := Store.Window(db.posts.order, skip, ItemsPerPage);
      Store.CountIsOrderLength(db.posts);
      Outcome(db, [], Ok(200, PostsPage("posts fetched succefully!",
        seq(|ids|, i requires 0 <= i < |ids| => View(db, ids[i])), Store.Count(db.posts))))
  }

  /** The stored `imageUrl` of a new post: the upload's path with its first backslash
      (and only the first) turned into a slash. */
  function ImageUrl(path: string): string {
    ReplaceFirst(path, '\\', '/')
  }

  /** `createPost`: validation errors and a missing upload are 422 with nothing
      written. Otherwise the post is saved with the requesting user as creator, and its
      id pushed onto that user's `posts`; when that user does not exist the post stays
      saved and the request fails with 500. */
  function CreatePost(db: Db, userId: string, errors: seq<FieldError>, file: Option<App.StoredFile>,
                      title: string, content: string, newId: Id): (o: Outcome<Db, CreatedPost>)
    requires newId !in db.posts.docs
    ensures o.cleared == []
    ensures errors != [] ==> Untouched(o, db) && FailsWith(o, 422)
    ensures file.None? ==> Untouched(o, db) && FailsWith(o, 422)
    ensures o.reply.Ok? <==>
      errors == [] && file.Some? && CastId(userId).Some? && CastId(userId).value in db.users.docs
    ensures o.reply.Ok? ==>
      var uid := CastId(userId).value;
      var user := db.users.docs[uid];
      var created := o.reply.body;
      && o.reply.status == 201
      && created.post == PostDoc(newId, Post(title, content, ImageUrl(file.value.path), uid))
      && created.creator == CreatorSummary(uid, user.name)
      && o.store.posts == Store.Insert(db.posts, newId, created.post.post)
      && o.store.users == Store.Replace(db.users, uid, user.(posts := user.posts + [newId]))
    ensures errors == [] && file.Some? && o.reply.Fail? ==> FailsWith(o, 500)
    ensures errors == [] && file.Some? && CastId(userId).None? ==> Untouched(o, db)
    ensures errors == [] && file.Some? && CastId(userId).Some? && CastId(userId).value !in db.users.docs ==>
      o.store == db.(posts := Store.Insert(db.posts, newId, Post(title, content, ImageUrl(file.value.path), CastId(userId).value)))
  {
    if errors != [] then
      Outcome(db, [], Fail(ThrowError("Validation failed!", 422)))
    else if file.None? then
      Outcome(db, [], Fail(ThrowError("no Valid image provided!", 422)))
    else
      match CastId(userId)
      case None =>
        Outcome(db, [], Fail(CatchError(LibraryError("Post validation failed: creator: Cast to ObjectId failed"))))
      case Some(uid) =>
        var post := Post(title, content, ImageUrl(file.value.path), uid);
        var saved := db.(posts := Store.Insert(db.posts, newId, post));
        match Store.Get(db.users, uid)
        case None =>
          Outcome(saved, [], Fail(CatchError(LibraryError("Cannot read property 'posts' of null"))))
        case Some(user) =>
          var users := Store.Replace(db.users, uid, user.(posts := user.posts + [newId]));
          Outcome(saved.(users := users), [],
            Ok(201, CreatedPost("post created successfully!", PostDoc(newId, post), CreatorSummary(uid, user.name))))
  }

  function NotFound(id: string): HttpError {
    ThrowError("Post with id: " + id + " was not found...", 404)
  }

  function CastFailure(id: string): HttpError {
    CatchError(LibraryError("Cast to ObjectId failed for value \"" + id + "\""))
  }

  /** `getPost`: any caller gets an existing post; there is no ownership check. */
  function GetPost(db: Db, id: string): (o: Outcome<Db, FoundPost>)
    ensures o.store == db && o.cleared == []
    ensures o.reply.Ok? <==> CastId(id).Some? && CastId(id).value in db.posts.docs
    ensures o.reply.Ok? ==>
      o.reply.status == 200 && o.reply.body.post == PostDoc(CastId(id).value, db.posts.docs[CastId(id).value])
    ensures CastId(id).Some? && CastId(id).value !in db.posts.docs ==> FailsWith(o, 404)
    ensures CastId(id).None? ==> FailsWith(o, 500)
  {
    match CastId(id)
    case None => Outcome(db, [], Fail(CastFailure(id)))
    case Some(pid) =>
      match Store.Get(db.posts, pid)
      case None => Outcome(db, [], Fail(NotFound(id)))
      case Some(post) => Outcome(db, [], Ok(200, FoundPost("post found!", PostDoc(pid, post))))
  }

  /** The image `putPost` keeps: an uploaded file's path wins over `body.image`; an
      empty string means no image at all. */
  function ResolveImage(bodyImage: string, file: Option<App.StoredFile>): string {
    if file.Some? then file.value.path else bodyImage
  }

  /** The owner-only guard of `putPost` and `deletePost`: `post.creator.toString() !==
      req.userId.toString()` compares the stored creator's text with the user id text. */
  predicate Owns(userId: string, post: Post) {
    post.creator == userId
  }

  /** `putPost`: 422 (validation, then no image) before any lookup; then 404, then 403;
      on success title, content and image are overwritten, and the old image is cleared
      exactly when the image changed. Every failure leaves the store and the images as
      they were. */
  function PutPost(db: Db, userId: string, errors: seq<FieldError>, id: string, title: string,
                   content: string, bodyImage: string, file: Option<App.StoredFile>): (o: Outcome<Db, FoundPost>)
    ensures o.reply.Fail? ==> Untouched(o, db)
    ensures errors != [] ==> FailsWith(o, 422)
    ensures ResolveImage(bodyImage, file) == "" ==> FailsWith(o, 422)
    ensures errors == [] && ResolveImage(bodyImage, file) != "" ==>
      && (CastId(id).None? ==> FailsWith(o, 500))
      && (CastId(id).Some? && CastId(id).value !in db.posts.docs ==> FailsWith(o, 404))
      && (CastId(id).Some? && CastId(id).value in db.posts.docs && !Owns(userId, db.posts.docs[CastId(id).value]) ==>
            FailsWith(o, 403))
    ensures o.reply.Ok? <==>
      && errors == [] && ResolveImage(bodyImage, file) != ""
      && CastId(id).Some? && CastId(id).value in db.posts.docs && Owns(userId, db.posts.docs[CastId(id).value])
    ensures o.reply.Ok? ==>
      var pid := CastId(id).value;
      var before := db.posts.docs[pid];
      var url := ResolveImage(bodyImage, file);
      var updated := Post(title, content, url, before.creator);
      && o.reply.status == 200
      && o.reply.body.post == PostDoc(pid, updated)
      && o.store == db.(posts := Store.Replace(db.posts, pid, updated))
      && (o.cleared == [before.imageUrl] <==> url != before.imageUrl)
      && (o.cleared == [] <==> url == before.imageUrl)
  {
    if errors != [] then
      Outcome(db, [], Fail(ThrowError("Validation failed!", 422)))
    else
      var url := ResolveImage(bodyImage, file);
      if url == "" then
        Outcome(db, [], Fail(ThrowError("No file picked!", 422)))
      else
        match CastId(id)
        case None => Outcome(db, [], Fail(CastFailure(id)))
        case Some(pid) =>
          match Store.Get(db.posts, pid)
          case None => Outcome(db, [], Fail(NotFound(id)))
          case Some(post) =>
            if !Owns(userId, post) then
              Outcome(db, [], Fail(ThrowError("Not autherized...", 403)))
            else
              var cleared := if url != post.imageUrl then [post.imageUrl] else [];
              var updated := post.(title := title, content := content, imageUrl := url);
              Outcome(db.(posts := Store.Replace(db.posts, pid, updated)), cleared,
                Ok(200, FoundPost("post updated!", PostDoc(pid, updated))))
  }

  /** `deletePost`: 404, then 403, with nothing changed; otherwise the post's image is
      cleared once, the post removed, and its id pulled from the requesting user's
      `posts`. When that user does not exist the removal stands and the request fails
      with 500. */
  function DeletePost(db: Db, userId: string, id: string): (o: Outcome<Db, Removed>)
    ensures CastId(id).None? ==> Untouched(o, db) && FailsWith(o, 500)
    ensures CastId(id).Some? && CastId(id).value !in db.posts.docs ==> Untouched(o, db) && FailsWith(o, 404)
    ensures CastId(id).Some? && CastId(id).value in db.posts.docs && !Owns(userId, db.posts.docs[CastId(id).value]) ==>
      Untouched(o, db) && FailsWith(o, 403)
    ensures CastId(id).Some? && CastId(id).value in db.posts.docs && Owns(userId, db.posts.docs[CastId(id).value]) ==>
      var pid := CastId(id).value;
      && o.cleared == [db.posts.docs[pid].imageUrl]
      && o.store.posts == Store.Remove(db.posts, pid)
      && (o.reply.Ok? <==> CastId(userId).Some? && CastId(userId).value in db.users.docs)
      && (o.reply.Ok? ==>
            var uid := CastId(userId).value;
            var user := db.users.docs[uid];
            o.reply.status == 200 && o.store.users == Store.Replace(db.users, uid, user.(posts := Store.Without(user.posts, pid))))
      && (o.reply.Fail? ==> o.store.users == db.users && FailsWith(o, 500))
  {
    match CastId(id)
    case None => Outcome(db, [], Fail(CastFailure(id)))
    case Some(pid) =>
      match Store.Get(db.posts, pid)
      case None => Outcome(db, [], Fail(NotFound(id)))
      case Some(post) =>
        if !Owns(userId, post) then
          Outcome(db, [], Fail(ThrowError("Not autherized...", 403)))
        else
          var cleared := [post.imageUrl];
          var removed := db.(posts := Store.Remove(db.posts, pid));
          match CastId(userId)
          case None => Outcome(removed, cleared, Fail(CastFailure(userId)))
          case Some(uid) =>
            match Store.Get(db.users, uid)
            case None => Outcome(removed, cleared, Fail(CatchError(LibraryError("Cannot read property 'posts' of null"))))
            case Some(user) =>
              var users := Store.Replace(db.users, uid, user.(posts := Store.Without(user.posts, pid)));
              Outcome(removed.(users := users), cleared, Ok(200, Removed("post removed!")))
  }
}

=== FILE: feed_properties.dfy ===
/**
 * Properties relating the feed handlers to each other and to the store invariant:
 * paging walks every post exactly once, every handler keeps the invariant, and the
 * handlers undo or observe one another as a client would expect.
 */
module FeedProperties {
  import opened Common
  import opened Text
  import opened Errors
  import opened Replies
  import opened Db
  import Store
  import App
  import opened FeedController

  function Min(a: int, b: int): int {
    if a <= b then a else b
  }

  /** Pages 1 to `k` of `order`, one after the other. */
  function Pages(order: seq<Id>, k: nat): seq<Id> {
    if k == 0 then [] else Pages(order, k - 1) + PageIds(order, k)
  }

  /** The first `k` pages are exactly the first `2k` posts in storage order. */
  lemma {:induction false} PagesArePrefix(order: seq<Id>, k: nat)
    ensures Pages(order, k) == order[..Min(k * ItemsPerPage, |order|)]
  {
    if k > 0 {
      PagesArePrefix(order, k - 1);
      var lo := Min((k - 1) * ItemsPerPage, |order|);
      var hi := Min(k * ItemsPerPage, |order|);
      assert PageIds(order, k) == order[lo..hi];
      assert order[..lo] + order[lo..hi] == order[..hi];
    }
  }

  /** The number of pages a client computes from `totalItems`. */
  function PageCount(n: nat): nat {
    (n + ItemsPerPage - 1) / ItemsPerPage
  }

  /** Pages 1 to `ceil(N/2)` list every post exactly once, in storage order; every later
      page is empty. */
  lemma PagesPartition(db: Db)
    requires Valid(db)
    ensures Pages(db.posts.order, PageCount(|db.posts.order|)) == db.posts.order
    ensures forall k :: k > PageCount(|db.posts.order|) ==> PageIds(db.posts.order, k) == []
  {
    PagesArePrefix(db.posts.order, PageCount(|db.posts.order|));
  }

  /** Every page the client can ask for reports the same `totalItems`, the number of
      posts; a page past the last one is an empty list, not an error. */
  lemma TotalIndependentOfPage(db: Db, k: int)
    requires Valid(db) && k >= 1
    ensures GetPosts(db, Some(k)).reply.Ok?
    ensures GetPosts(db, Some(k)).reply.body.totalItems == Store.Count(db.posts)
    ensures k > PageCount(|db.posts.order|) ==> GetPosts(db, Some(k)).reply.body.posts == []
  {
    Store.CountIsOrderLength(db.posts);
  }

  /** An absent page parameter is page 1. */
  lemma PageDefaultsToFirst(db: Db)
    requires Valid(db)
    ensures GetPosts(db, None) == GetPosts(db, Some(1))
  {
  }

  /** `createPost` keeps the store invariant, on success and on its partial failure. */
  lemma CreateKeepsValid(db: Db, userId: string, errors: seq<FieldError>, file: Option<App.StoredFile>,
                         title: string, content: string, newId: Id)
    requires Valid(db) && IsCanonicalId(newId) && newId !in db.posts.docs
    ensures Valid(CreatePost(db, userId, errors, file, title, content, newId).store)
  {
    var o := CreatePost(db, userId, errors, file, title, content, newId);
    if o.store != db {
      var uid := CastId(userId).value;
      var s := o.store;
      Store.InsertValid(db.posts, newId, s.posts.docs[newId]);
      if o.reply.Ok? {
        Store.ReplaceValid(db.users, uid, s.users.docs[uid]);
      }
      forall u, p | u in s.users.docs && p in s.users.docs[u].posts
        ensures p in s.posts.docs && s.posts.docs[p].creator == u
      {
        if p != newId {
          assert p in db.users.docs[u].posts;
        }
      }
    }
  }

  /** `putPost` keeps the store invariant: the creator of a post never changes. */
  lemma PutKeepsValid(db: Db, userId: string, errors: seq<FieldError>, id: string, title: string,
                      content: string, bodyImage: string, file: Option<App.StoredFile>)
    requires Valid(db)
    ensures Valid(PutPost(db, userId, errors, id, title, content, bodyImage, file).store)
  {
    var o := PutPost(db, userId, errors, id, title, content, bodyImage, file);
    if o.reply.Ok? {
      var pid := CastId(id).value;
      Store.ReplaceValid(db.posts, pid, o.store.posts.docs[pid]);
    }
  }

  /** Removing a post keeps the back-references when every list a user keeps is one
      the user had before, without the removed post. */
  lemma LinkedAfterRemoval(db: Db, pid: Id, users: Store.Collection<User>)
    requires Linked(db)
    requires forall u, p :: u in users.docs && p in users.docs[u].posts ==>
      u in db.users.docs && p in db.users.docs[u].posts && p != pid
    ensures Linked(Db(Store.Remove(db.posts, pid), users))
  {
  }

  /** A post listed by a user other than the post's creator: impossible in a linked store. */
  lemma OnlyCreatorLists(db: Db, pid: Id, u: Id)
    requires Linked(db) && pid in db.posts.docs
    requires u in db.users.docs && u != db.posts.docs[pid].creator
    ensures pid !in db.users.docs[u].posts
  {
  }

  /** The users after the creator's list is pulled: every list is an old one without
      the post. */
  lemma PulledLists(db: Db, pid: Id, userId: Id)
    requires Linked(db) && pid in db.posts.docs && db.posts.docs[pid].creator == userId
    requires userId in db.users.docs
    ensures var user := db.users.docs[userId];
            var users := Store.Replace(db.users, userId, user.(posts := Store.Without(user.posts, pid)));
            forall u, p :: u in users.docs && p in users.docs[u].posts ==>
              u in db.users.docs && p in db.users.docs[u].posts && p != pid
  {
    var user := db.users.docs[userId];
    var users := Store.Replace(db.users, userId, user.(posts := Store.Without(user.posts, pid)));
    forall u, p | u in users.docs && p in users.docs[u].posts
      ensures u in db.users.docs && p in db.users.docs[u].posts && p != pid
    {
      if u == userId {
        assert p in Store.Without(user.posts, pid);
      } else {
        OnlyCreatorLists(db, pid, u);
        assert users.docs[u] == db.users.docs[u];
      }
    }
  }

  /** `deletePost` keeps the store invariant: the only user listing a post is its
      creator, whose list the handler cleans. */
  lemma DeleteKeepsValid(db: Db, userId: string, id: string)
    requires Valid(db)
    ensures Valid(DeletePost(db, userId, id).store)
  {
    var o := DeletePost(db, userId, id);
    if CastId(id).Some? && CastId(id).value in db.posts.docs && Owns(userId, db.posts.docs[CastId(id).value]) {
      var pid := CastId(id).value;
      assert IsCanonicalId(userId);
      CastCanonical(userId);
      Store.RemoveValid(db.posts, pid);
      if o.reply.Ok? {
        var user := db.users.docs[userId];
        var users := Store.Replace(db.users, userId, user.(posts := Store.Without(user.posts, pid)));
        assert o.store == Db(Store.Remove(db.posts, pid), users);
        Store.ReplaceValid(db.users, userId, users.docs[userId]);
        PulledLists(db, pid, userId);
        LinkedAfterRemoval(db, pid, users);
      } else {
        assert o.store == Db(Store.Remove(db.posts, pid), db.users);
        forall u, p | u in db.users.docs && p in db.users.docs[u].posts
          ensures p != pid
        {
          OnlyCreatorLists(db, pid, u);
        }
        LinkedAfterRemoval(db, pid, db.users);
      }
    }
  }

  /** A created post can be read back as it was returned. */
  lemma CreateThenGet(db: Db, userId: string, errors: seq<FieldError>, file: Option<App.StoredFile>,
                      title: string, content: string, newId: Id)
    requires IsCanonicalId(newId) && newId !in db.posts.docs
    requires CreatePost(db, userId, errors, file, title, content, newId).reply.Ok?
    ensures GetPost(CreatePost(db, userId, errors, file, title, content, newId).store, newId).reply
         == Ok(200, FoundPost("post found!", CreatePost(db, userId, errors, file, title, content, newId).reply.body.post))
  {
    CastCanonical(newId);
  }

  /** An updated post reads back as the update returned it. */
  lemma UpdateThenGet(db: Db, userId: string, errors: seq<FieldError>, id: string, title: string,
                      content: string, bodyImage: string, file: Option<App.StoredFile>)
    requires PutPost(db, userId, errors, id, title, content, bodyImage, file).reply.Ok?
    ensures GetPost(PutPost(db, userId, errors, id, title, content, bodyImage, file).store, id).reply
         == Ok(200, FoundPost("post found!", PutPost(db, userId, errors, id, title, content, bodyImage, file).reply.body.post))
  {
  }

  /** After its owner deleted it, a post is gone and no user lists it any more. */
  lemma DeleteThenGet(db: Db, userId: string, id: string)
    requires Valid(db)
    requires CastId(id).Some? && CastId(id).value in db.posts.docs
    requires Owns(userId, db.posts.docs[CastId(id).value])
    ensures FailsWith(GetPost(DeletePost(db, userId, id).store, id), 404)
    ensures forall u :: u in DeletePost(db, userId, id).store.users.docs ==>
              CastId(id).value !in DeletePost(db, userId, id).store.users.docs[u].posts
  {
    DeleteKeepsValid(db, userId, id);
    var pid := CastId(id).value;
    var after := DeletePost(db, userId, id).store;
    assert after.posts.docs == db.posts.docs - {pid};
    UnlistedWhenGone(after, pid);
  }

  /** In a linked store, a post that is not stored is listed by no user. */
  lemma UnlistedWhenGone(db: Db, pid: Id)
    requires Linked(db) && pid !in db.posts.docs
    ensures forall u :: u in db.users.docs ==> pid !in db.users.docs[u].posts
  {
  }

  /** Creating a post and then deleting it as the same user restores the store exactly,
      and the delete clears the image the create stored. */
  lemma CreateThenDelete(db: Db, userId: string, file: App.StoredFile, title: string, content: string, newId: Id)
    requires Valid(db) && IsCanonicalId(newId) && newId !in db.posts.docs
    requires IsCanonicalId(userId) && userId in db.users.docs
    ensures var created := CreatePost(db, userId, [], Some(file), title, content, newId);
            var deleted := DeletePost(created.store, userId, newId);
            && created.reply.Ok? && deleted.reply.Ok?
            && deleted.store == db
            && deleted.cleared == [ImageUrl(file.path)]
  {
    CastCanonical(userId);
    CastCanonical(newId);
    var user := db.users.docs[userId];
    var post := Post(title, content, ImageUrl(file.path), userId);
    var pushed := user.(posts := user.posts + [newId]);
    var created := CreatePost(db, userId, [], Some(file), title, content, newId);
    assert created.reply.Ok?;
    assert created.store == Db(Store.Insert(db.posts, newId, post), Store.Replace(db.users, userId, pushed));
    assert newId !in user.posts;
    Store.WithoutAppended(user.posts, newId);
    assert pushed.(posts := Store.Without(pushed.posts, newId)) == user;
    var deleted := DeletePost(created.store, userId, newId);
    assert deleted.store == Db(Store.Remove(Store.Insert(db.posts, newId, post), newId),
                               Store.Replace(Store.Replace(db.users, userId, pushed), userId, user));
    Store.InsertThenRemove(db.posts, newId, post);
    Store.ReplaceBack(db.users, userId, pushed);
  }

  /** An upload multer received becomes the created post's `imageUrl`: on a host whose
      separator is a backslash, that separator is the one replaced, giving
      `images/<uuid>-<name>`; on a host whose separator is a slash, the first backslash
      of the client's file name is replaced instead, should that name hold one (the
      multipart parser normally cuts the name down to its base name, leaving none). */
  lemma ReceivedImageUrl(db: Db, userId: string, file: App.IncomingFile, uuid: string, sep: char,
                         title: string, content: string, newId: Id)
    requires sep == '/' || sep == '\\'
    requires file.mimetype in App.ImageTypes
    requires newId !in db.posts.docs
    ensures var stored := App.Receive(Some(file), uuid, sep);
            var name := App.FileName(uuid, file.originalname);
            var o := CreatePost(db, userId, [], stored, title, content, newId);
            && stored.Some?
            && (sep == '\\' ==> ImageUrl(stored.value.path) == App.ImagesDir + "/" + name)
            && (sep == '/' ==> ImageUrl(stored.value.path) == App.ImagesDir + "/" + ReplaceFirst(name, '\\', '/'))
            && (o.reply.Ok? ==> o.reply.body.post.post.imageUrl == ImageUrl(stored.value.path))
  {
    var name := App.FileName(uuid, file.originalname);
    var path := App.ImagesDir + [sep] + name;
    assert '\\' !in App.ImagesDir;
    if sep == '\\' {
      ReplaceFirstAfter(App.ImagesDir, [sep] + name, '\\', '/');
      assert IndexOf([sep] + name, '\\') == 0;
      assert ReplaceFirst([sep] + name, '\\', '/') == "/" + name;
      assert path == App.ImagesDir + ([sep] + name);
    } else {
      assert '\\' !in App.ImagesDir + [sep];
      ReplaceFirstAfter(App.ImagesDir + [sep], name, '\\', '/');
    }
  }
}

=== FILE: feed_routes.dfy ===
/**
 * The feed router: which middleware runs before each feed handler, and the post
 * validators (title and content, each trimmed and at least five characters long).
 * A request passes multer first (application-wide), then its route's middleware
 * chain, then the handler; the error middleware turns any failure into the status
 * sent back.
 */
module FeedRoutes {
  import opened Common
  import opened Text
  import opened Errors
  import opened Replies
  import opened Db
  import App
  import opened FeedController
  import FeedProperties

  datatype Verb = GET | POST | PUT | DELETE

  datatype FeedRoute = ListPosts | AddPost | ShowPost | EditPost | RemovePost

  datatype Middleware = IsAuth | PostValidators

  function VerbOf(r: FeedRoute): Verb {
    match r
    case ListPosts => GET
    case AddPost => POST
    case ShowPost => GET
    case EditPost => PUT
    case RemovePost => DELETE
  }

  /** The path under `/feed`. */
  function PathOf(r: FeedRoute): string {
    match r
    case ListPosts => "/posts"
    case AddPost => "/posts"
    case ShowPost => "/post/:id"
    case EditPost => "/post/:id"
    case RemovePost => "/post/:id"
  }

  /** The middleware registered before each handler, in order. */
  function Chain(r: FeedRoute): seq<Middleware> {
    match r
    case ListPosts => [IsAuth]
    case AddPost => [IsAuth, PostValidators]
    case ShowPost => [IsAuth]
    case EditPost => [IsAuth, PostValidators]
    case RemovePost => [IsAuth]
  }

  /** Every route, both reads included, is guarded by `isAuth`, which runs first; the
      post validators run on create and update only; no two routes share a verb and a
      path. */
  lemma RouteTable(r: FeedRoute, r': FeedRoute)
    ensures |Chain(r)| >= 1 && Chain(r)[0] == IsAuth
    ensures PostValidators in Chain(r) <==> r == AddPost || r == EditPost
    ensures r != r' ==> (VerbOf(r), PathOf(r)) != (VerbOf(r'), PathOf(r'))
  {
  }

  /** The express-validator default message. */
  const InvalidValue := "Invalid value"

  /** The body after the validators: the trimmed fields and the errors recorded. */
  datatype Validated = Validated(errors: seq<FieldError>, title: string, content: string)

  /** A title or content is valid when, trimmed, it has at least five characters. */
  predicate LongEnough(s: string) {
    |Trim(s)| >= 5
  }

  const TitleError := FieldError("title", InvalidValue)
  const ContentError := FieldError("content", InvalidValue)

  /** The errors the post validators record, in chain order, given which fields passed. */
  function PostErrors(okTitle: bool, okContent: bool): (errors: seq<FieldError>)
    ensures TitleError in errors <==> !okTitle
    ensures ContentError in errors <==> !okContent
    ensures errors == [] <==> okTitle && okContent
    ensures !okTitle ==> errors[0] == TitleError
    ensures |errors| <= 2
    ensures forall e :: e in errors ==> e == TitleError || e == ContentError
    ensures forall i, j :: 0 <= i < j < |errors| ==> errors[i] != errors[j]
  {
    assert TitleError != ContentError;
    if okTitle && okContent then []
    else if okTitle then [ContentError]
    else if okContent then [TitleError]
    else [TitleError, ContentError]
  }

  /** `postValidators`: both fields are checked and trimmed; every failing field is
      recorded, title before content, and nothing else is. */
  function PostValidation(title: string, content: string): (v: Validated)
    ensures v.title == Trim(title) && v.content == Trim(content)
    ensures TitleError in v.errors <==> !LongEnough(title)
    ensures ContentError in v.errors <==> !LongEnough(content)
    ensures v.errors == [] <==> LongEnough(title) && LongEnough(content)
    ensures !LongEnough(title) ==> v.errors[0] == TitleError
    ensures |v.errors| <= 2
    ensures forall e :: e in v.errors ==> e == TitleError || e == ContentError
    ensures forall i, j :: 0 <= i < j < |v.errors| ==> v.errors[i] != v.errors[j]
  {
    Validated(PostErrors(LongEnough(title), LongEnough(content)), Trim(title), Trim(content))
  }

  /** The validator's test in terms of the raw field: some two non-space characters lie
      at least five characters apart (counting both). */
  lemma LongEnoughIff(s: string)
    ensures LongEnough(s) <==>
      exists i, j :: 0 <= i <= j < |s| && j - i + 1 >= 5 && !IsSpace(s[i]) && !IsSpace(s[j])
  {
    TrimmedLengthAtLeast(s, 5);
  }

  /** What `isAuth` decided: the user id it put on the request, or the error it raised. */
  datatype Gate = Authenticated(userId: string) | Refused(error: HttpError)

  /** The parts of a feed request the handlers read: `req.params.id`, the numeric
      `req.query.page`, the body fields and `req.file`. */
  datatype FeedRequest = FeedRequest(id: string, page: Option<int>, title: string, content: string,
                                     image: string, file: Option<App.StoredFile>)

  /** What the client and the store see of a handled request. */
  datatype Handled = Handled(store: Db, cleared: seq<string>, status: int)

  function Finish<T>(o: Outcome<Db, T>): (h: Handled)
    ensures h.store == o.store && h.cleared == o.cleared
    ensures o.reply.Fail? ==> h.status == App.RespondError(o.reply.error).status
  {
    match o.reply
    case Ok(status, _) => Handled(o.store, o.cleared, status)
    case Fail(e) => Handled(o.store, o.cleared, App.RespondError(e).status)
  }

  /** A request on `route`, through its middleware chain and its handler. `newId` is the
      ObjectId a new post would get. */
  function Handle(db: Db, route: FeedRoute, gate: Gate, req: FeedRequest, newId: Id): (h: Handled)
    requires Valid(db) && newId !in db.posts.docs
    ensures gate.Refused? ==> h == Handled(db, [], App.RespondError(gate.error).status)
    ensures gate.Authenticated? && (route == ListPosts || route == ShowPost) ==> h.store == db && h.cleared == []
  {
    match gate
    case Refused(e) => Handled(db, [], App.RespondError(e).status)
    case Authenticated(userId) =>
      var v := if PostValidators in Chain(route) then PostValidation(req.title, req.content)
               else Validated([], req.title, req.content);
      match route
      case ListPosts => Finish(GetPosts(db, req.page))
      case AddPost => Finish(CreatePost(db, userId, v.errors, req.file, v.title, v.content, newId))
      case ShowPost => Finish(GetPost(db, req.id))
      case EditPost => Finish(PutPost(db, userId, v.errors, req.id, v.title, v.content, req.image, req.file))
      case RemovePost => Finish(DeletePost(db, userId, req.id))
  }

  /** A request `isAuth` refuses changes nothing and clears no image, whatever the
      route, reads included; an upload multer already stored stays on disk. */
  lemma RefusedChangesNothing(db: Db, route: FeedRoute, e: HttpError, req: FeedRequest, newId: Id)
    requires Valid(db) && newId !in db.posts.docs
    ensures Handle(db, route, Refused(e), req, newId) == Handled(db, [], App.RespondError(e).status)
  {
  }

  /** A short title or content makes create and update fail with 422 and change
      nothing. */
  lemma ShortFieldsRefused(db: Db, userId: string, req: FeedRequest, newId: Id)
    requires Valid(db) && newId !in db.posts.docs
    requires !LongEnough(req.title) || !LongEnough(req.content)
    ensures Handle(db, AddPost, Authenticated(userId), req, newId) == Handled(db, [], 422)
    ensures Handle(db, EditPost, Authenticated(userId), req, newId) == Handled(db, [], 422)
  {
    var v := PostValidation(req.title, req.content);
    assert v.errors != [];
    assert PostValidators in Chain(AddPost) && PostValidators in Chain(EditPost);
  }

  /** Listing, reading and deleting never look at the title, content or image fields. */
  lemma ReadsIgnoreBody(db: Db, userId: string, req: FeedRequest, req': FeedRequest, newId: Id)
    requires Valid(db) && newId !in db.posts.docs
    requires req.id == req'.id && req.page == req'.page
    ensures Handle(db, ListPosts, Authenticated(userId), req, newId) == Handle(db, ListPosts, Authenticated(userId), req', newId)
    ensures Handle(db, ShowPost, Authenticated(userId), req, newId) == Handle(db, ShowPost, Authenticated(userId), req', newId)
    ensures Handle(db, RemovePost, Authenticated(userId), req, newId) == Handle(db, RemovePost, Authenticated(userId), req', newId)
  {
  }

  /** A field shorter than five characters as sent is too short after trimming too. */
  lemma ShortRawIsShort(s: string)
    requires |s| < 5
    ensures !LongEnough(s)
  {
    assert |Trim(s)| <= |s|;
  }

  /** The post-length scenario: a title and a content each shorter than five characters
      (such as "abc") are both recorded, title first, and the create is refused with
      422. */
  lemma ShortTitleAndContent(db: Db, userId: string, req: FeedRequest, newId: Id)
    requires Valid(db) && newId !in db.posts.docs
    requires |req.title| < 5 && |req.content| < 5
    ensures PostValidation(req.title, req.content).errors ==
      [TitleError, ContentError]
    ensures Handle(db, AddPost, Authenticated(userId), req, newId).status == 422
  {
    ShortRawIsShort(req.title);
    ShortRawIsShort(req.content);
    ShortFieldsRefused(db, userId, req, newId);
    var errors := PostValidation(req.title, req.content).errors;
    assert errors[0] == TitleError && ContentError in errors && TitleError != ContentError;
    assert |errors| == 2;
  }

  /** Every request keeps the store invariant. */
  lemma HandleKeepsValid(db: Db, route: FeedRoute, gate: Gate, req: FeedRequest, newId: Id)
    requires Valid(db) && IsCanonicalId(newId) && newId !in db.posts.docs
    ensures Valid(Handle(db, route, gate, req, newId).store)
  {
    if gate.Authenticated? {
      var userId := gate.userId;
      var v := if PostValidators in Chain(route) then PostValidation(req.title, req.content)
               else Validated([], req.title, req.content);
      match route
      case ListPosts =>
      case AddPost =>
        FeedProperties.CreateKeepsValid(db, userId, v.errors, req.file, v.title, v.content, newId);
      case ShowPost =>
      case EditPost =>
        FeedProperties.PutKeepsValid(db, userId, v.errors, req.id, v.title, v.content, req.image, req.file);
      case RemovePost =>
        FeedProperties.DeleteKeepsValid(db, userId, req.id);
    }
  }

  /** A failed validation reaches the client as the bare message: the 422 response of
      create and update says which request failed, not which fields. */
  lemma ValidationFailureNamesNoField(db: Db, userId: string, errors: seq<FieldError>, req: FeedRequest, newId: Id)
    requires newId !in db.posts.docs && errors != []
    ensures var o := CreatePost(db, userId, errors, req.file, req.title, req.content, newId);
            App.RespondError(o.reply.error) == App.ErrorResponse(422, App.ErrorBody("Validation failed!"))
    ensures var o := PutPost(db, userId, errors, req.id, req.title, req.content, req.image, req.file);
            App.RespondError(o.reply.error) == App.ErrorResponse(422, App.ErrorBody("Validation failed!"))
  {
  }
}

=== FILE: resolvers.dfy ===
/**
 * The GraphQL `createUser` resolver: it collects every input error before failing,
 * refuses an email that is already taken, and returns the saved user with its id as a
 * string. `validator.isEmail` and bcrypt are parameters.
 */
module Resolvers {
  import opened Common
  import opened Db
  import Store

  datatype UserInput = UserInput(email: string, name: string, password: string)

  /** One entry of an error's `data` list. */
  datatype ErrorItem = ErrorItem(message: string)

  /** A thrown resolver error: its message, its `data` and its `code`, both of which
      may be left unset. */
  datatype GraphQLError = GraphQLError(message: string, data: Option<seq<ErrorItem>>, code: Option<int>)

  /** The resolver's result: the saved document's fields with `_id` as a string (the
      stored password hash included). */
  datatype CreatedUser = CreatedUser(id: string, email: string, name: string, password: string, posts: seq<Id>)

  datatype Resolved<+T> = Value(value: T) | Thrown(error: GraphQLError)

  const EmailInvalid := ErrorItem("email is invalid!")
  const PasswordTooShort := ErrorItem("password too short!")

  /** `validator.isEmpty(password) || !validator.isLength(password, {min: 5})`. */
  predicate PasswordRejected(password: string) {
    |password| == 0 || !(|password| >= 5)
  }

  /** The password is rejected exactly when it is shorter than five characters (the
      empty test adds nothing). */
  lemma PasswordRejectedIff(password: string)
    ensures PasswordRejected(password) <==> |password| < 5
  {
  }

  /** The collected input errors: every failing check contributes, email first. */
  function InputErrors(input: UserInput, isEmail: string -> bool): (errors: seq<ErrorItem>)
    ensures EmailInvalid in errors <==> !isEmail(input.email)
    ensures PasswordTooShort in errors <==> |input.password| < 5
    ensures |errors| <= 2
    ensures forall e :: e in errors ==> e == EmailInvalid || e == PasswordTooShort
    ensures forall i, j :: 0 <= i < j < |errors| ==> errors[i] != errors[j]
    ensures !isEmail(input.email) ==> errors[0] == EmailInvalid
    ensures errors == [] <==> isEmail(input.email) && |input.password| >= 5
  {
    (if !isEmail(input.email) then [EmailInvalid] else [])
    + (if PasswordRejected(input.password) then [PasswordTooShort] else [])
  }

  /** `createUser`: input errors throw with code 422 and the error list as `data` before
      any lookup; a taken email throws (with no code) and saves nothing; otherwise the
      user is saved with the hash as password and returned with its id as text. */
  function CreateUser(db: Db, input: UserInput, isEmail: string -> bool, hash: string -> string, newId: Id)
    : (r: (Db, Resolved<CreatedUser>))
    requires newId !in db.users.docs
    ensures r.0.posts == db.posts
    ensures InputErrors(input, isEmail) != [] ==>
      r == (db, Thrown(GraphQLError("invalid input!", Some(InputErrors(input, isEmail)), Some(422))))
    ensures r.1.Thrown? ==> r.0 == db
    ensures InputErrors(input, isEmail) == [] && FindByEmail(db.users, input.email).Some? ==>
      r.1 == Thrown(GraphQLError("User allready exists!", None, None))
    ensures r.1.Value? <==> InputErrors(input, isEmail) == [] && FindByEmail(db.users, input.email).None?
    ensures r.1.Value? ==>
      && r.0.users == Store.Insert(db.users, newId, User(input.email, input.name, hash(input.password), []))
      && r.1.value == CreatedUser(newId, input.email, input.name, hash(input.password), [])
  {
    var errors := InputErrors(input, isEmail);
    if errors != [] then
      (db, Thrown(GraphQLError("invalid input!", Some(errors), Some(422))))
    else if FindByEmail(db.users, input.email).Some? then
      (db, Thrown(GraphQLError("User allready exists!", None, None)))
    else
      var user := User(input.email, input.name, hash(input.password), []);
      (db.(users := Store.Insert(db.users, newId, user)),
       Value(CreatedUser(newId, user.email, user.name, user.password, user.posts)))
  }

  /** An invalid email and a short password are both reported, in that order. */
  lemma ErrorsAreCollected(input: UserInput, isEmail: string -> bool)
    requires !isEmail(input.email) && |input.password| < 5
    ensures InputErrors(input, isEmail) == [EmailInvalid, PasswordTooShort]
  {
  }

  /** In a valid store, creating a user whose email is taken fails and saves nothing;
      once created, the user is the one a lookup by email finds, and the returned
      `_id` text casts back to the saved id. */
  lemma CreateUserDuplicate(db: Db, input: UserInput, isEmail: string -> bool, hash: string -> string, newId: Id)
    requires Valid(db) && IsCanonicalId(newId) && newId !in db.users.docs
    ensures (exists id :: id in db.users.docs && db.users.docs[id].email == input.email) ==>
      CreateUser(db, input, isEmail, hash, newId).1.Thrown? && CreateUser(db, input, isEmail, hash, newId).0 == db
    ensures CreateUser(db, input, isEmail, hash, newId).1.Value? ==>
      var created := CreateUser(db, input, isEmail, hash, newId);
      && FindByEmail(created.0.users, input.email) == Some(newId)
      && CastId(created.1.value.id) == Some(newId)
  {
    FindByEmailNone(db.users, input.email);
    var created := CreateUser(db, input, isEmail, hash, newId);
    if created.1.Value? {
      FindNewUser(db.users, newId, User(input.email, input.name, hash(input.password), []));
      CastCanonical(newId);
    }
  }

  /** `createUser` keeps the store invariant: a new user lists no posts. */
  lemma CreateUserKeepsValid(db: Db, input: UserInput, isEmail: string -> bool, hash: string -> string, newId: Id)
    requires Valid(db) && IsCanonicalId(newId) && newId !in db.users.docs
    ensures Valid(CreateUser(db, input, isEmail, hash, newId).0)
  {
    var r := CreateUser(db, input, isEmail, hash, newId);
    if r.1.Value? {
      var user := User(input.email, input.name, hash(input.password), []);
      Store.InsertValid(db.users, newId, user);
      assert r.0 == db.(users := Store.Insert(db.users, newId, user));
    }
  }
}

=== FILE: store.dfy ===
/**
 * An abstract document collection, standing in for a MongoDB collection behind a
 * Mongoose model: documents keyed by their id, plus the collection's natural
 * (storage) order, which is the order `find()` returns them in when no sort is given.
 */
module Store {
  import opened Common

  datatype Collection<T> = Collection(docs: map<string, T>, order: seq<string>)

  /** No id appears twice in `s`. */
  predicate Distinct(s: seq<string>) {
    forall i, j :: 0 <= i < j < |s| ==> s[i] != s[j]
  }

  /** The storage order lists every document exactly once. */
  predicate Valid<T>(c: Collection<T>) {
    && Distinct(c.order)
    && (forall i :: 0 <= i < |c.order| ==> c.order[i] in c.docs)
    && (forall id :: id in c.docs ==> id in c.order)
  }

  /** `findById`: the document stored under `id`, if any. */
  function Get<T>(c: Collection<T>, id: string): (r: Option<T>)
    ensures r.Some? <==> id in c.docs
    ensures r.Some? ==> r.value == c.docs[id]
  {
    if id in c.docs then Some(c.docs[id]) else None
  }

  /** `countDocuments()`: the number of documents. */
  function Count<T>(c: Collection<T>): nat {
    |c.docs|
  }

  /** Saving a new document: it is stored under `id` and placed last in storage order. */
  function Insert<T>(c: Collection<T>, id: string, doc: T): (r: Collection<T>)
    requires id !in c.docs
    ensures r.docs == c.docs[id := doc]
    ensures r.order == c.order + [id]
  {
    Collection(c.docs[id := doc], c.order + [id])
  }

  /** Saving an existing document: its content changes, its place does not. */
  function Replace<T>(c: Collection<T>, id: string, doc: T): (r: Collection<T>)
    requires id in c.docs
    ensures r.docs == c.docs[id := doc]
    ensures r.order == c.order
  {
    Collection(c.docs[id := doc], c.order)
  }

  /** `s` with every occurrence of `x` removed, the rest in its original order
      (also Mongoose's `array.pull(x)`). */
  function Without(s: seq<string>, x: string): (r: seq<string>)
    ensures |r| <= |s|
    ensures forall y :: y in r <==> y in s && y != x
    ensures x !in s ==> r == s
    ensures Distinct(s) ==> Distinct(r)
    ensures multiset(r) == multiset(s)[x := 0]
  {
    if s == [] then []
    else
      assert s == [s[0]] + s[1..];
      if s[0] == x then Without(s[1..], x)
      else
        var rest := Without(s[1..], x);
        assert Distinct(s) ==> s[0] !in s[1..];
        [s[0]] + rest
  }

  /** Pulling from a concatenation pulls from each part and keeps the parts in order:
      the survivors keep their relative order. */
  lemma {:induction false} WithoutConcat(a: seq<string>, b: seq<string>, x: string)
    ensures Without(a + b, x) == Without(a, x) + Without(b, x)
  {
    if a == [] {
      assert a + b == b;
    } else {
      assert (a + b)[0] == a[0];
      assert (a + b)[1..] == a[1..] + b;
      WithoutConcat(a[1..], b, x);
    }
  }

  /** Removing `x` from a sequence that ends with it, and holds it nowhere else,
      gives back the prefix. */
  lemma {:induction false} WithoutAppended(s: seq<string>, x: string)
    requires x !in s
    ensures Without(s + [x], x) == s
  {
    if s == [] {
      assert [] + [x] == [x];
      assert [x][1..] == [];
    } else {
      assert (s + [x])[1..] == s[1..] + [x];
      WithoutAppended(s[1..], x);
      assert [s[0]] + s[1..] == s;
    }
  }

  /** `findByIdAndRemove(id)`: the document is gone, the others keep their order. */
  function Remove<T>(c: Collection<T>, id: string): (r: Collection<T>)
    ensures r.docs == c.docs - {id}
    ensures r.order == Without(c.order, id)
  {
    Collection(c.docs - {id}, Without(c.order, id))
  }

  /** `.skip(skip).limit(limit)` over the storage order. */
  function Window(s: seq<string>, skip: nat, limit: nat): (r: seq<string>)
    ensures |r| <= limit
    ensures skip >= |s| ==> r == []
    ensures forall i :: 0 <= i < |r| ==> skip + i < |s| && r[i] == s[skip + i]
    ensures skip + limit <= |s| ==> |r| == limit
    ensures skip <= |s| <= skip + limit ==> |r| == |s| - skip
  {
    if skip >= |s| then [] else if skip + limit <= |s| then s[skip..skip + limit] else s[skip..]
  }

  /** Removing a document just inserted gives back the collection. */
  lemma InsertThenRemove<T>(c: Collection<T>, id: string, doc: T)
    requires Valid(c) && id !in c.docs
    ensures Remove(Insert(c, id, doc), id) == c
  {
    assert id !in c.order;
    WithoutAppended(c.order, id);
    assert c.docs[id := doc] - {id} == c.docs;
  }

  /** Saving a document's previous content again gives back the collection. */
  lemma ReplaceBack<T>(c: Collection<T>, id: string, doc: T)
    requires id in c.docs
    ensures Replace(Replace(c, id, doc), id, c.docs[id]) == c
  {
    assert c.docs[id := doc][id := c.docs[id]] == c.docs;
  }

  /** Every operation keeps the storage order in step with the documents. */
  lemma InsertValid<T>(c: Collection<T>, id: string, doc: T)
    requires Valid(c) && id !in c.docs
    ensures Valid(Insert(c, id, doc))
  {
  }

  lemma ReplaceValid<T>(c: Collection<T>, id: string, doc: T)
    requires Valid(c) && id in c.docs
    ensures Valid(Replace(c, id, doc))
  {
  }

  lemma RemoveValid<T>(c: Collection<T>, id: string)
    requires Valid(c)
    ensures Valid(Remove(c, id))
  {
    var r := Remove(c, id);
    forall i | 0 <= i < |r.order|
      ensures r.order[i] in r.docs
    {
      assert r.order[i] in r.order;
    }
  }

  /** In a valid collection the document count is the length of the storage order:
      `countDocuments()` counts exactly what paging walks through. */
  lemma {:induction false} CountIsOrderLength<T>(c: Collection<T>)
    requires Valid(c)
    ensures Count(c) == |c.order|
  {
    DistinctCard(c.order);
    assert c.docs.Keys == set i | 0 <= i < |c.order| :: c.order[i];
  }

  lemma {:induction false} DistinctCard(s: seq<string>)
    requires Distinct(s)
    ensures |set i | 0 <= i < |s| :: s[i]| == |s|
  {
    if s != [] {
      var t := s[..|s| - 1];
      DistinctCard(t);
      var last := s[|s| - 1];
      assert (set i | 0 <= i < |s| :: s[i]) == (set i | 0 <= i < |t| :: t[i]) + {last};
      assert last !in (set i | 0 <= i < |t| :: t[i]);
    }
  }
}
